=== FILE: README.md ===
# Page-context chat extension: a Dafny model

The extension is a Chrome side panel that chats with the browser's built-in
language model (`LanguageModel`) and can give it the text of the page in the
active tab. It has two parts, and this project models both.

**The content script (`content.js`).** It runs in every page.

- `extractPageContent` turns the page into a snapshot. It runs an ordered
  cascade of tiers:
  1. eleven landmark selectors;
  2. a copy of the body with its navigation, advertising and script regions
     removed;
  3. a whitespace cleanup;
  4. the page's paragraphs, headings and list items;
  5. the raw document text;
  6. a 4000-character cap.

  It records which tier produced the text (`contentSource`). Any exception
  becomes a `success: false` record.
- `checkForChanges` remembers the URL and the first 1000 characters of the body
  text. It posts a fresh snapshot when either one differs.

**The side-panel script (`sidepanel/index.js`).** It holds the chat.

- It accepts or refuses the snapshot it is given, and explains a refusal in the
  page-context card.
- It composes the system prompt from the base sentence, the page-context block
  or the "not available" note.
- It clamps the prompt box's height and caps the default top-K.
- It enables the send button only for non-blank input.
- It runs the event handlers of the toggle, the reset button, the sliders, the
  prompt box and the send path.

The Dafny modules:

| module | file | what it holds |
|---|---|---|
| `Wrappers` | wrappers.dfy | `Option` (JavaScript `null`) and `Result` (a throw) |
| `JsText` | jstext.dfy | JavaScript's whitespace class, `trim`, `join` and `substring(0, n)` |
| `Cleanup` | cleanup.dfy | the two `replace` calls and the `trim` of the cleanup, with their properties |
| `ContentExtraction` | extraction.dfy | the page as abstract data, the cascade as specification functions, and the imperative `ExtractPageContent` proved equal to them, tier by tier |
| `ExtractionProperties` | extraction.dfy | what the cascade promises: tier order, provenance of each `contentSource`, non-empty bounded content, the error record |
| `ChangeDetection` | change_detection.dfy | the `lastUrl`/`lastContent` detector as a class |
| `PanelRules` | sidepanel_rules.dfy | the side panel's stateless rules: height clamp, top-K cap, acceptance and refusal message, send rule, system prompt |
| `SidePanel` | sidepanel.dfy | the side panel's state as a class `Panel`, one method per handler |

How the page is represented:

- **Snapshot input.** `ContentExtraction.Document` gives, for each selector,
  the element `querySelector` finds (absent when there is none). An HTML
  element carries its `innerText`. An SVG or MathML element has no
  `innerText`: the landmark loop's `.trim()` on it throws a TypeError, which
  the catch block records. The document also gives:
  - the body's text, with and without the removed regions;
  - the texts of the paragraph, heading and list-item elements, in document
    order;
  - the root element's text.

  A null `document.body` is `None`. It makes the tiers that read the body
  throw, with the engine's message for reading a property of `null`.
- **Strings.** A `char` stands for one UTF-16 code unit, so `|s|` is the
  JavaScript `length`.
- **Whitespace.** `IsWhitespace` is the ECMAScript WhiteSpace and
  LineTerminator set, which `\s` and `trim()` share.

## Model

| member | source | states |
|---|---|---|
| `JsText.TrimStart` | content.js:65 | the result is a suffix of the input and starts with a non-whitespace character when non-empty |
| `JsText.TrimStartSkipsWhitespace` | content.js:65 | everything `trimStart` drops is whitespace |
| `JsText.TrimEnd` | content.js:65 | the result is a prefix of the input and ends with a non-whitespace character when non-empty |
| `JsText.TrimEndSkipsWhitespace` | content.js:65 | everything `trimEnd` drops is whitespace |
| `JsText.Trim` | content.js:65 | the result is no longer than the input, has no whitespace at either end, and equals the input when that is already trimmed |
| `JsText.TrimEmptyIffBlank` | content.js:65 | `trim()` yields the empty string exactly when the input is all whitespace |
| `JsText.Join` | content.js:77 | joining nothing gives ""; otherwise the result starts with the first part and ends with the last |
| `JsText.JoinSnoc` | content.js:77 | joining one more part appends the separator and that part, so a joined list of pushed parts holds every part in order, separated by `sep` |
| `JsText.Prefix` | content.js:90 | `substring(0, n)` keeps `min(length, n)` leading characters |
| `Cleanup.CollapseWhitespace` | content.js:63 | the result is no longer than the input, is empty exactly when the input is, and starts with whitespace exactly when the input does |
| `Cleanup.CollapseIsSingleSpaced` | content.js:63 | after `replace(/\s+/g, ' ')` every whitespace character is a space and no two are adjacent |
| `Cleanup.CollapseConcat` | content.js:63 | a text that is empty or ends in a non-whitespace character collapses independently of whatever follows it |
| `Cleanup.CollapseRun` | content.js:63 | a non-empty whitespace run followed by nothing or by a non-whitespace character collapses to exactly one space |
| `Cleanup.CollapseSeparates` | content.js:63 | `a + w + b`, with `w` a maximal whitespace run between `a` and `b`, collapses to the collapse of `a`, one space, and the collapse of `b` |
| `Cleanup.NewlineEnd` | content.js:64 | gives the position just past the last '\n' before `n`; nothing between it and `n` is a '\n' |
| `Cleanup.BlankLineEnd` | content.js:64 | the greedy match of `\n\s*\n` after a '\n': it exists exactly when the whitespace run opening the text holds a '\n'. It ends on the run's last '\n', spans only whitespace, and no '\n' of the run lies past it |
| `Cleanup.RemoveBlankLines` | content.js:64 | `replace(/\n\s*\n/g, '\n')` never lengthens the text and yields "" exactly for "" |
| `Cleanup.RemoveBlankLinesLeavesNoBlankLine` | content.js:64 | no empty line survives: between any two line breaks of the result there is a non-whitespace character |
| `Cleanup.RemoveBlankLinesWithoutNewline` | content.js:64 | the blank-line replace leaves a text without '\n' unchanged |
| `Cleanup.RemoveBlankLinesKeepsCleanText` | content.js:64 | a text with no blank line (every two line breaks have a non-whitespace character between them) comes back unchanged |
| `Cleanup.RemoveBlankLinesAfterLineText` | content.js:64 | text without a '\n' in front passes through unchanged: `replace(x + y) == x + replace(y)` |
| `Cleanup.RemoveBlankLinesSplit` | content.js:64 | no match crosses a visible character: for `a` empty or ending in one, `replace(a + r) == replace(a) + replace(r)` |
| `Cleanup.RemoveBlankLinesAroundMatch` | content.js:64 | a line break followed by a whitespace run `w`, between text `a` and text `b`: `a` and `b` are kept (each with its own blank lines removed), the line break stays, and `w` loses everything up to and including its last '\n' (nothing when it has none) |
| `Cleanup.BlankLineRemovalIsNoOp` | content.js:63-64 | after the whitespace collapse, the blank-line replace never changes anything |
| `Cleanup.CleanTextShape` | content.js:62-65 | the cleaned text has no whitespace at either end, only lone spaces inside and no line break, and is no longer than the input |
| `Cleanup.CleanText` | content.js:62-65 | the cleaned text has no whitespace at either end and is no longer than the input |
| `Cleanup.TrimSingleSpaced` | content.js:65 | trimming keeps a single-spaced text single-spaced |
| `Cleanup.CollapseSingleSpaced` | content.js:63 | a single-spaced text is its own collapse |
| `Cleanup.CleanTextIdempotent` | content.js:62-65 | cleaning twice gives the same text as cleaning once |
| `Cleanup.TrimStartKeepsVisible` | content.js:65 | `trimStart` keeps every non-whitespace character in order |
| `Cleanup.TrimEndKeepsVisible` | content.js:65 | `trimEnd` keeps every non-whitespace character in order |
| `Cleanup.CollapseKeepsVisible` | content.js:63 | the whitespace collapse keeps every non-whitespace character in order |
| `Cleanup.CleanTextKeepsVisible` | content.js:62-65 | the whole cleanup keeps every non-whitespace character in order; it only rewrites whitespace |
| `ContentExtraction.FirstLandmark` | content.js:28-35 | the selector found is one where the loop ends: its element is HTML with a trimmed text longer than 100, or has no `innerText`. No earlier selector ends the loop; `None` means the loop runs to its end |
| `ContentExtraction.PrimaryDraft` | content.js:24-59 | the primary text comes from a landmark, whose trimmed text is then longer than 100, or from the filtered body. It fails only on a landmark without `innerText`, or on cloning a null body |
| `ContentExtraction.KeptFragments` | content.js:69-76 | no more fragments are kept than there are elements |
| `ContentExtraction.KeptFragmentsTrimmed` | content.js:72-74 | every kept fragment is trimmed and longer than 10 characters |
| `ContentExtraction.RawText` | content.js:83 | the raw text is never empty. It is the body text when that is non-empty, else the root text when that is non-empty, else the fixed notice |
| `ContentExtraction.Truncate` | content.js:88-91 | a text of at most 4000 characters is unchanged. A longer one keeps its first 4000 characters followed by the marker, 4022 in all. The result is over 4000 exactly when the input was |
| `ContentExtraction.SettledDraft` | content.js:24-85 | a settled text has at least 20 characters unless it is the raw document text. It fails only on a landmark without `innerText` or when the body is null |
| `ContentExtraction.ErrorPage` | content.js:108-119 | the catch block's record: not a success, tagged 'error', with a non-empty error message and title, the page URL and the timestamp |
| `ContentExtraction.Extract` | content.js:3-120 | the snapshot succeeds exactly when the settled tiers do; it always carries the page URL, the timestamp and a non-empty title |
| `ContentExtraction.ProbeLandmarks` | content.js:24-35 | the loop stops at the first selector whose element ends it. For an HTML element it keeps the untrimmed text, tagged with the selector string; an element without `innerText` throws. Otherwise ("", 'fallback') |
| `ContentExtraction.CollectParagraphs` | content.js:69-76 | the `forEach` pushes exactly the kept fragments, in document order |
| `ContentExtraction.KeptFragmentsStep` | content.js:71-75 | one more element appends its trimmed text to the kept list exactly when that text is longer than 10 |
| `ContentExtraction.PrimaryTiers` | content.js:24-59 | the landmark tier, then the filtered body. A landmark without `innerText` throws, and so does cloning a null body |
| `ContentExtraction.ParagraphStep` | content.js:68-79 | cleaned text shorter than 50 is replaced by the '\n'-join of the kept fragments, tagged 'paragraphs' |
| `ContentExtraction.RawStep` | content.js:82-85 | text shorter than 20 is replaced by the raw text, tagged 'document-text'; a null body throws |
| `ContentExtraction.ExtractPageContent` | content.js:3-120 | the script's step-by-step run equals the cascade specification `Extract`, including the catch block's record |
| `ExtractionProperties.LandmarkTierPicksFirst` | content.js:28-35 | a qualifying selector that no earlier selector stops before wins; its untrimmed text is kept and the selector string is the tag |
| `ExtractionProperties.FilteredBodyOnlyWithoutLandmark` | content.js:38-59 | the filtered body is used exactly when the body exists and the landmark loop runs to its end, and then its text is the filtered text |
| `ExtractionProperties.JoinTrimmed` | content.js:77 | a join whose first and last parts are trimmed and non-empty is trimmed and non-empty |
| `ExtractionProperties.ParagraphTextShape` | content.js:69-77 | the paragraph text is empty exactly when nothing is kept; otherwise it is longer than 10 and trimmed |
| `ExtractionProperties.SettledDraftShape` | content.js:24-85 | a settled text is non-empty, its tag is never 'fallback' or 'error', and a landmark tag is one of the probed selectors |
| `ExtractionProperties.SuccessfulSnapshot` | content.js:100-107 | a successful snapshot has non-empty content of at most 4022 characters and a real tier tag, whose stored string is neither 'fallback' nor 'error'. Its title is the document title, or 'Untitled Page' when that is empty. It has the page URL and no error |
| `ExtractionProperties.FailedSnapshot` | content.js:108-119 | a snapshot fails exactly when the cascade throws. A landmark without `innerText` always makes it fail with the `trim` TypeError, and with a body present that is the only failure. Without a body and a landmark, it fails with the `cloneNode` message. A failed one stores the tag string 'error', with the fixed content, an error message and the title defaulting to 'Error' |
| `ExtractionProperties.SourceNameIdentifiesTier` | content.js:25-114 | the `contentSource` string stored by any two snapshots is the same only when they come from the same tier (for a landmark, the same selector): no probed selector is spelled like a tier name |
| `ExtractionProperties.PageOfSettled` | content.js:87-107 | the snapshot carries the settled tier's tag and its truncated text |
| `ExtractionProperties.SettledKeepsPrimary` | content.js:62-85 | the primary tier's tag survives exactly when its cleaned text has at least 50 characters; otherwise 'paragraphs' or 'document-text' wins |
| `ExtractionProperties.SourceIsLandmark` | content.js:28-91 | the tag is a selector exactly when the loop ended at an HTML element whose cleaned text has at least 50 characters; the content is then that cleaned text, truncated |
| `ExtractionProperties.SourceIsFilteredBody` | content.js:38-91 | the tag is 'body-filtered' exactly when the landmark loop ran to its end, the body exists and its filtered text cleans to at least 50 characters |
| `ExtractionProperties.SettledAfterParagraphs` | content.js:68-85 | after the paragraph tier, a text of 20 or more characters settles as 'paragraphs'; a shorter one goes to the raw tier |
| `ExtractionProperties.SourceIsParagraphs` | content.js:68-85 | the tag is 'paragraphs' exactly when the primary text cleaned to fewer than 50 characters and the paragraph text has at least 20 |
| `ExtractionProperties.SourceIsDocumentText` | content.js:82-85 | the tag is 'document-text' exactly when the body exists and every earlier tier left fewer than 20 characters; the content is then the raw text, truncated |
| `ChangeDetection.Fingerprint` | content.js:136 | a prefix of the body text: exactly the first 1000 characters when the text has at least 1000, the whole text when it is not longer |
| `ChangeDetection.EditsBeyondProbeGoUnnoticed` | content.js:136-138 | two texts that agree on their first 1000 characters look the same to the detector |
| `ChangeDetection.ChangeDetector.constructor` | content.js:131-132 | the detector starts with the load-time URL and an empty `lastContent` |
| `ChangeDetection.ChangeDetector.CheckForChanges` | content.js:134-148 | posts a snapshot exactly when the URL or the fingerprint differs from the stored one. The snapshot is `Extract` of the page. Afterwards both fields hold the current values. A null body throws before anything is stored |
| `ChangeDetection.RecheckIsQuiet` | content.js:134-148 | a second check of an unchanged page posts nothing |
| `PanelRules.TextareaHeight` | sidepanel/index.js:27 | the height is always in [52, 160]; it equals `scrollHeight` when that is in range, else the nearer bound |
| `PanelRules.HeightMonotone` | sidepanel/index.js:27 | a taller content never gives a shorter box |
| `PanelRules.DefaultTopK` | sidepanel/index.js:118-125 | the starting top-K is the model default capped at 3 |
| `PanelRules.RejectionReasons` | sidepanel/index.js:172-180 | for a refused reply: its own non-empty error first. "Cannot access" exactly when there is no reply. With no error of its own, "too short" exactly when its content is non-empty and at most 50 characters, and the default text exactly when the content is empty, or long but failed |
| `PanelRules.RejectionFor` | sidepanel/index.js:170-180 | a non-empty error of the reply is shown first, whatever its content. The card always gets a non-empty explanation, and "Cannot access" is chosen exactly when there is no reply |
| `PanelRules.SnapshotVerdict` | sidepanel/index.js:160-180 | an extractor snapshot is accepted exactly when it succeeded with more than 50 characters. A failed one shows its own `error` string; a successful but short one shows the "too short" text |
| `PanelRules.SnapshotFacts` | content.js:100-118 | a successful snapshot has content and no error; a failed one has a non-empty error message |
| `PanelRules.SendEnabled` | sidepanel/index.js:236 | send is enabled exactly when the input holds a non-whitespace character |
| `PanelRules.Accepts` | sidepanel/index.js:160 | any accepted page data is usable as prompt context |
| `PanelRules.SystemPrompt` | sidepanel/index.js:267-297 | every prompt starts with the base sentence, and it is the base sentence alone exactly when the toggle is off |
| `PanelRules.ToggleOffIgnoresPage` | sidepanel/index.js:270 | with the toggle off, the page data plays no part in the prompt |
| `PanelRules.BlockCarriesPieces` | sidepanel/index.js:272-279 | title, URL and content all occur in a prompt that ends with the context block |
| `PanelRules.PromptCarriesPage` | sidepanel/index.js:271-279 | with the toggle on and usable data, the page's title, URL and content occur in the prompt |
| `PanelRules.PromptOutcomesDistinct` | sidepanel/index.js:270-297 | with the toggle on, the prompt is the "not available" one exactly when the data is not usable |
| `PanelRules.InitDefaultsAsWritten` | sidepanel/index.js:108-114 | as written, a missing `LanguageModel` throws a ReferenceError before the availability test, and a present one has its `params()` applied |
| `PanelRules.UnavailableBranchIsDead` | sidepanel/index.js:109-114 | as written, 'Model not available' is never shown |
| `PanelRules.InitDefaultsChecked` | sidepanel/index.js:108-128 | with the test first, 'Model not available' is shown exactly when the API is missing, the defaults are applied otherwise, and nothing throws |
| `SidePanel.Panel.constructor` | sidepanel/index.js:21-22 | no session, no page data, the toggle checked, only the welcome message |
| `SidePanel.Panel.Reset` | sidepanel/index.js:101-106 | the session is always dropped |
| `SidePanel.Panel.ShowResponse` | sidepanel/index.js:323-327 | the loading line is hidden, send is enabled and the answer is appended |
| `SidePanel.Panel.AddAIMessage` | sidepanel/index.js:52-70 | the answer is appended to the transcript |
| `SidePanel.Panel.ShowError` | sidepanel/index.js:329-334 | the loading line is hidden, send is enabled, and the toast shows the error |
| `SidePanel.Panel.HideErrorToast` | sidepanel/index.js:336-338 | the toast is hidden again |
| `SidePanel.Panel.ShowLoading` | sidepanel/index.js:316-321 | reset is enabled, send disabled and the loading line shown |
| `SidePanel.Panel.InitDefaults` | sidepanel/index.js:108-128 | the model defaults go into the sliders, top-K capped at 3, and each label equals its slider; the transcript, send button and loading line are untouched. With no API, 'Model not available' is shown and the sliders are untouched |
| `SidePanel.Panel.UpdatePageInfo` | sidepanel/index.js:158-187 | accepted data becomes `currentPageData` with the card hidden. Refused data clears it and shows the card with the message of `RejectionFor`. The panel invariant is kept |
| `SidePanel.Panel.ToggleChanged` | sidepanel/index.js:203-210 | unchecking forgets the page and hides the card. Checking keeps accepted data with the card hidden; refused data is cleared and the card shows the message of `RejectionFor` |
| `SidePanel.Panel.PageChanged` | sidepanel/index.js:190-200 | a tab switch or reload refetches only while the toggle is on. Accepted data is kept with the card hidden; refused data is cleared and the card shows the message of `RejectionFor`. Any other message changes nothing |
| `SidePanel.Panel.ResetClicked` | sidepanel/index.js:216-222 | the transcript is back to the welcome message, no session, loading line and toast hidden, reset disabled |
| `SidePanel.Panel.TemperatureInput` | sidepanel/index.js:224-227 | the label shows the new value and the session is dropped |
| `SidePanel.Panel.TopKInput` | sidepanel/index.js:229-232 | the label shows the new value and the session is dropped |
| `SidePanel.Panel.Input` | sidepanel/index.js:234-241 | the box is resized by the clamp, and send is disabled exactly when the input is blank |
| `SidePanel.Panel.AddUserMessage` | sidepanel/index.js:32-49 | the prompt is appended to the transcript |
| `SidePanel.Panel.AutoResizeTextarea` | sidepanel/index.js:25-29 | the box's height is the clamp of its content height |
| `SidePanel.Panel.RunPrompt` | sidepanel/index.js:85-99 | an existing session is reused. Otherwise one is created with the given options, or dropped when creation fails. A failed prompt leaves the session in place |
| `SidePanel.PromptReply` | sidepanel/index.js:85-99 | with a session, or when creation succeeds, the reply is the model's answer; a failed creation with no session rejects with the creation's own error |
| `SidePanel.Panel.Submit` | sidepanel/index.js:258-311 | the prompt and then the answer are appended, the box is cleared and resized, and a failure goes to the toast. A new session carries the toggle and the page data of this moment |
| `SidePanel.Panel.SendMessage` | sidepanel/index.js:254-312 | a blank input changes nothing; otherwise the trimmed input is sent and the panel invariant is kept |
| `SidePanel.Panel.KeyDown` | sidepanel/index.js:244-251 | Enter without Shift sends the trimmed input when the button is enabled. Shift+Enter, other keys, a disabled button and a blank input change nothing |

## Left out

- **Real DOM behaviour.** Selector matching, `innerText` rendering, and the
  `cloneNode`/`remove` of the non-content regions are not modelled. Their
  results are the fields of `Document`. Because of this, `RemovedRegions` is a
  list of names that the model never applies.
- **Chrome messaging and event routing.** This covers `chrome.runtime.onMessage`
  listeners, `chrome.tabs.query`/`sendMessage`, the `getPageContent` request of
  content.js:123-128, and background.js. A fetch or a notification becomes one
  method call whose reply is a parameter. `null` (an unreachable tab) is `None`.
- **Timers, and the interleaving of awaits and handlers.** This covers the
  2-second `setInterval`, `DOMContentLoaded`, the 500 ms and 5 s timeouts, and
  concurrent events. Each handler runs to completion. The toast's timer is the
  separate method `HideErrorToast`.
- **`LanguageModel` itself.** Creating a session and prompting it are inputs:
  `creation` and `answer` are their outcomes.
  - A session is represented by the options it was created with. Those include
    the toggle and page data its system prompt is composed from, where the
    script holds the composed string. That string is
    `SystemPrompt(contextChecked, pageData)` of the session's options.
  - Errors reach the toast as the text `String(e)` would show.
  - `session.destroy()` is not modelled.
- **Rendering and logging.** DOMPurify sanitisation, `marked` Markdown
  rendering, message markup, timestamps (`toLocaleTimeString`, `Date.now`,
  which is the `now` parameter), scrolling and `console` output are not
  modelled.
- **The page markup.** The panel's HTML is not part of this model. The
  constructor takes its initial state to be:
  - an empty prompt box;
  - both buttons disabled;
  - the loading line, toast and card hidden;
  - only the welcome message.
- **Slider and label values.** They are numbers here. The DOM's
  string-to-number sanitisation of range inputs, and `maxTemperature` (which the
  source comments out), are not modelled.
- **Characters outside the Basic Multilingual Plane.** They are not
  represented: JavaScript treats them as two UTF-16 units. No operation here
  splits a surrogate pair except `substring` in `Truncate` and `Fingerprint`,
  which both work on units, as the model does.
- ContentExtraction.KeptFragments: its own contract only bounds the length.
  That the kept fragments are trimmed and longer than 10 characters is the
  separate lemma `KeptFragmentsTrimmed`.

## Findings

| source | as written | input that shows it | evidently intended | confidence | as-written member | corrected member |
|---|---|---|---|---|---|---|
| sidepanel/index.js:108-114 | `await LanguageModel.params()` runs before the `'LanguageModel' in self` test | a browser without the Prompt API (`LanguageModel` undeclared): line 109 throws a ReferenceError, `initDefaults` rejects unhandled, and 'Model not available' is never shown | test for the API first, then read its defaults | not executed; high (JavaScript semantics of an undeclared identifier) | `PanelRules.UnavailableBranchIsDead` | `PanelRules.InitDefaultsChecked` |

`PanelRules.InitDefaultsAsWritten` models the script as written, and
`PanelRules.UnavailableBranchIsDead` proves that its "not available" branch
cannot be reached. `SidePanel.Panel.InitDefaults` uses the corrected order, and
its contract is stated through `PanelRules.InitDefaultsChecked`.

=== FILE: change_detection.dfy ===
/**
 * The change detector of content.js (`checkForChanges`): module-level state
 * `lastUrl` and `lastContent`, compared on every check against the current URL
 * and the first 1000 characters of the body text. A difference stores the
 * current values and posts a fresh snapshot to the side panel.
 */
module ChangeDetection {
  import opened Wrappers
  import opened JsText
  import opened ContentExtraction

  /** How many leading characters of the body text are compared between checks. */
  const ProbeLength := 1000

  /** What one check does: post a snapshot, stay quiet, or throw because
      `document.body` is null (the exception escapes the timer callback). */
  datatype CheckOutcome = Changed(page: PageData) | Unchanged | Threw(fault: Fault)

  /** `document.body.innerText.substring(0, 1000)`. */
  function Fingerprint(body: Body): (r: string)
    ensures |r| <= ProbeLength && |r| <= |body.text| && r == body.text[..|r|]
    ensures |body.text| <= ProbeLength <==> r == body.text
    ensures |body.text| >= ProbeLength ==> |r| == ProbeLength
  {
    Prefix(body.text, ProbeLength)
  }

  /** Two bodies whose texts agree on their first `ProbeLength` characters look
      the same to the detector: later edits on the same URL go unnoticed. */
  lemma EditsBeyondProbeGoUnnoticed(a: Body, b: Body)
    requires |a.text| >= ProbeLength && |b.text| >= ProbeLength
    requires a.text[..ProbeLength] == b.text[..ProbeLength]
    ensures Fingerprint(a) == Fingerprint(b)
  {
  }

  class ChangeDetector {
    var lastUrl: string
    var lastContent: string

    /** The script's start: `lastUrl` is the URL the page loaded with, `lastContent` is empty. */
    constructor(url: string)
      ensures lastUrl == url && lastContent == ""
    {
      lastUrl := url;
      lastContent := "";
    }

    /** Whether a check of `doc` would post an event. */
    predicate Fires(doc: Document)
      requires doc.body.Some?
      reads this
    {
      doc.url != lastUrl || Fingerprint(doc.body.value) != lastContent
    }

    /** content.js:131-148. */
    method CheckForChanges(doc: Document, now: int) returns (outcome: CheckOutcome)
      modifies this
      ensures doc.body.None? ==> outcome == Threw(NullBodyText) && lastUrl == old(lastUrl) && lastContent == old(lastContent)
      ensures doc.body.Some? ==> (outcome.Changed? <==> old(doc.url != lastUrl || Fingerprint(doc.body.value) != lastContent))
      ensures doc.body.Some? ==> outcome.Changed? || outcome.Unchanged?
      ensures outcome.Changed? ==> outcome.page == Extract(doc, now)
      ensures doc.body.Some? ==> lastUrl == doc.url && lastContent == Fingerprint(doc.body.value)
      ensures doc.body.Some? ==> !Fires(doc)
    {
      var currentUrl := doc.url;
      if doc.body.None? {
        return Threw(NullBodyText);
      }
      var currentContent := Prefix(doc.body.value.text, ProbeLength);
      if currentUrl != lastUrl || currentContent != lastContent {
        lastUrl := currentUrl;
        lastContent := currentContent;
        var page := ExtractPageContent(doc, now);
        outcome := Changed(page);
      } else {
        outcome := Unchanged;
      }
    }
  }

  /** Two checks of the same page in a row: the second one posts nothing. */
  method RecheckIsQuiet(detector: ChangeDetector, doc: Document, now: int, later: int)
      returns (first: CheckOutcome, second: CheckOutcome)
    requires doc.body.Some?
    modifies detector
    ensures first.Changed? <==> old(detector.lastUrl != doc.url || detector.lastContent != Fingerprint(doc.body.value))
    ensures second == Unchanged
  {
    first := detector.CheckForChanges(doc, now);
    second := detector.CheckForChanges(doc, later);
  }
}

=== FILE: cleanup.dfy ===
/**
 * The whitespace cleanup that content.js applies to the extracted text:
 * `.replace(/\s+/g, ' ')`, then `.replace(/\n\s*\n/g, '\n')`, then `.trim()`.
 */
module Cleanup {
  import opened JsText

  /** Every whitespace character is a space and no two whitespace characters are adjacent. */
  predicate SingleSpaced(s: string) {
    && (forall i :: 0 <= i < |s| && IsWhitespace(s[i]) ==> s[i] == ' ')
    && (forall i :: 0 < i < |s| && IsWhitespace(s[i]) ==> !IsWhitespace(s[i - 1]))
  }

  /** The non-whitespace characters of `s`, in order. */
  function Visible(s: string): string {
    if s == [] then "" else (if IsWhitespace(s[0]) then "" else [s[0]]) + Visible(s[1..])
  }

  /** `s.replace(/\s+/g, ' ')`: each maximal run of whitespace becomes a single space. */
  function CollapseWhitespace(s: string): (r: string)
    ensures |r| <= |s|
    ensures r == [] <==> s == []
    ensures r != [] ==> (IsWhitespace(r[0]) <==> IsWhitespace(s[0]))
    decreases |s|
  {
    if s == [] then ""
    else if IsWhitespace(s[0]) then " " + CollapseWhitespace(TrimStart(s[1..]))
    else [s[0]] + CollapseWhitespace(s[1..])
  }

  /** Putting a character in front of a single-spaced text keeps it single-spaced
      when the character is a space that is not followed by whitespace, or is visible. */
  lemma SingleSpacedCons(c: char, tail: string)
    requires SingleSpaced(tail)
    requires IsWhitespace(c) ==> c == ' ' && (tail != [] ==> !IsWhitespace(tail[0]))
    ensures SingleSpaced([c] + tail)
  {
  }

  /** After the collapse every whitespace character is a lone space. */
  lemma {:induction false} CollapseIsSingleSpaced(s: string)
    ensures SingleSpaced(CollapseWhitespace(s))
    decreases |s|
  {
    if s != [] {
      if IsWhitespace(s[0]) {
        var t := TrimStart(s[1..]);
        CollapseIsSingleSpaced(t);
        SingleSpacedCons(' ', CollapseWhitespace(t));
        assert CollapseWhitespace(s) == [' '] + CollapseWhitespace(t);
      } else {
        CollapseIsSingleSpaced(s[1..]);
        SingleSpacedCons(s[0], CollapseWhitespace(s[1..]));
        assert CollapseWhitespace(s) == [s[0]] + CollapseWhitespace(s[1..]);
      }
    }
  }

  lemma ConcatAssoc(x: string, y: string, z: string)
    ensures x + (y + z) == (x + y) + z
  {
  }

  lemma DropConcat(x: string, y: string, n: nat)
    requires n <= |x|
    ensures (x + y)[n..] == x[n..] + y
  {
  }

  /** The collapse of `a + r` when `a` opens with whitespace and ends visible: the
      opening run becomes a space and the rest of `a` meets `r` unchanged. */
  lemma CollapseRunHead(a: string, r: string)
    requires a != [] && IsWhitespace(a[0]) && !IsWhitespace(a[|a| - 1])
    ensures CollapseWhitespace(a + r) == " " + CollapseWhitespace(TrimStart(a[1..]) + r)
  {
    assert (a + r)[0] == a[0];
    assert (a + r)[1..] == a[1..] + r;
    TrimStartConcat(a[1..], r);
  }

  /** The collapse of `a + r` when `a` opens with a visible character. */
  lemma CollapseVisibleHead(a: string, r: string)
    requires a != [] && !IsWhitespace(a[0])
    ensures CollapseWhitespace(a + r) == [a[0]] + CollapseWhitespace(a[1..] + r)
  {
    assert (a + r)[0] == a[0];
    assert (a + r)[1..] == a[1..] + r;
  }

  /** A text ending in a visible character collapses independently of what follows it. */
  lemma {:induction false} CollapseConcat(a: string, r: string)
    requires a == [] || !IsWhitespace(a[|a| - 1])
    ensures CollapseWhitespace(a + r) == CollapseWhitespace(a) + CollapseWhitespace(r)
    decreases |a|
  {
    if a == [] {
      assert a + r == r;
    } else if IsWhitespace(a[0]) {
      var t := TrimStart(a[1..]);
      TrimStartKeepsLast(a[1..]);
      CollapseConcat(t, r);
      CollapseRunHead(a, r);
      ConcatAssoc(" ", CollapseWhitespace(t), CollapseWhitespace(r));
    } else {
      CollapseConcat(a[1..], r);
      CollapseVisibleHead(a, r);
      ConcatAssoc([a[0]], CollapseWhitespace(a[1..]), CollapseWhitespace(r));
    }
  }

  /** A run of whitespace in front of a visible character, or of nothing, becomes one space. */
  lemma CollapseRun(w: string, b: string)
    requires w != [] && AllWhitespace(w)
    requires b == [] || !IsWhitespace(b[0])
    ensures CollapseWhitespace(w + b) == " " + CollapseWhitespace(b)
  {
    assert (w + b)[1..] == w[1..] + b;
    TrimStartOverWhitespace(w[1..], b);
  }

  /** The whitespace run between two words collapses to exactly one space and the words
      on either side collapse on their own. */
  lemma CollapseSeparates(a: string, w: string, b: string)
    requires a == [] || !IsWhitespace(a[|a| - 1])
    requires w != [] && AllWhitespace(w)
    requires b == [] || !IsWhitespace(b[0])
    ensures CollapseWhitespace(a + w + b) == CollapseWhitespace(a) + " " + CollapseWhitespace(b)
  {
    ConcatAssoc(a, w, b);
    CollapseConcat(a, w + b);
    CollapseRun(w, b);
    ConcatAssoc(CollapseWhitespace(a), " ", CollapseWhitespace(b));
  }

  /** Index just past the last '\n' among `s[..n]`, or 0 when there is none. */
  function NewlineEnd(s: string, n: nat): (e: nat)
    requires n <= |s|
    ensures e <= n
    ensures e > 0 ==> s[e - 1] == '\n'
    ensures forall i :: e <= i < n ==> s[i] != '\n'
  {
    if n == 0 then 0 else if s[n - 1] == '\n' then n else NewlineEnd(s, n - 1)
  }

  /** Where a match of `\n\s*\n` that starts just before `t` ends: the greedy `\s*`
      takes the whole whitespace run opening `t` and backs off to its last '\n'.
      0 when the run holds no '\n' (no match). */
  function BlankLineEnd(t: string): (e: nat)
    ensures e <= |t| - |TrimStart(t)|
    ensures e > 0 ==> t[e - 1] == '\n' && AllWhitespace(t[..e])
    ensures e == 0 <==> forall i :: 0 <= i < |t| - |TrimStart(t)| ==> t[i] != '\n'
    ensures forall i :: e <= i < |t| - |TrimStart(t)| ==> t[i] != '\n'
  {
    var run := |t| - |TrimStart(t)|;
    TrimStartSkipsWhitespace(t);
    var e := NewlineEnd(t, run);
    assert e > 0 ==> t[..e] == t[..run][..e];
    e
  }

  /** `s.replace(/\n\s*\n/g, '\n')`, scanning left to right for leftmost matches. */
  function RemoveBlankLines(s: string): (r: string)
    ensures |r| <= |s|
    ensures r == [] <==> s == []
    decreases |s|
  {
    if s == [] then ""
    else if s[0] == '\n' && BlankLineEnd(s[1..]) > 0 then "\n" + RemoveBlankLines(s[1 + BlankLineEnd(s[1..])..])
    else [s[0]] + RemoveBlankLines(s[1..])
  }

  /** Some character of `r[lo..hi]` is not whitespace. */
  predicate VisibleBetween(r: string, lo: nat, hi: nat)
    requires hi <= |r|
  {
    exists k :: lo <= k < hi && !IsWhitespace(r[k])
  }

  /** Every '\n' of `r` has a visible character somewhere before it. */
  predicate TextBeforeEachNewline(r: string) {
    forall j :: 0 <= j < |r| && r[j] == '\n' ==> VisibleBetween(r, 0, j)
  }

  /** No two line breaks of `r` have only whitespace between them: no blank line. */
  predicate NoBlankLine(r: string) {
    forall i, j :: 0 <= i < j < |r| && r[i] == '\n' && r[j] == '\n' ==> VisibleBetween(r, i + 1, j)
  }

  /** Past a match, the rest of the whitespace run holds no '\n', so every '\n' that
      follows comes after the visible character ending the run. */
  lemma TextBeforeNewlineAfterRun(t: string, e: nat)
    requires e <= |t| - |TrimStart(t)|
    requires forall i :: e <= i < |t| - |TrimStart(t)| ==> t[i] != '\n'
    ensures TextBeforeEachNewline(t[e..])
  {
    var run := |t| - |TrimStart(t)|;
    var x := t[e..];
    forall j | 0 <= j < |x| && x[j] == '\n'
      ensures VisibleBetween(x, 0, j)
    {
      assert x[j] == t[e + j];
      assert e + j >= run;
      assert TrimStart(t) == t[run..] && TrimStart(t)[0] == t[run];
      assert x[run - e] == t[run];
    }
  }

  /** The blank-line replace keeps a visible character in front of every '\n'. */
  lemma {:induction false} RemoveBlankLinesKeepsTextFirst(x: string)
    requires TextBeforeEachNewline(x)
    ensures TextBeforeEachNewline(RemoveBlankLines(x))
    decreases |x|
  {
    if x != [] {
      var r := RemoveBlankLines(x);
      if !IsWhitespace(x[0]) {
        assert r == [x[0]] + RemoveBlankLines(x[1..]);
        forall j | 0 < j < |r| ensures VisibleBetween(r, 0, j) {
          assert !IsWhitespace(r[0]);
        }
      } else {
        assert x[0] != '\n';
        var tail := x[1..];
        forall j | 0 <= j < |tail| && tail[j] == '\n' ensures VisibleBetween(tail, 0, j) {
          assert x[j + 1] == '\n';
          var k :| 0 <= k < j + 1 && !IsWhitespace(x[k]);
          assert tail[k - 1] == x[k];
        }
        RemoveBlankLinesKeepsTextFirst(tail);
        var rt := RemoveBlankLines(tail);
        assert r == [x[0]] + rt;
        forall j | 0 <= j < |r| && r[j] == '\n' ensures VisibleBetween(r, 0, j) {
          assert j > 0 && rt[j - 1] == '\n';
          var k :| 0 <= k < j - 1 && !IsWhitespace(rt[k]);
          assert r[k + 1] == rt[k];
        }
      }
    }
  }

  /** Putting a character in front keeps a text free of blank lines, when that
      character is not a '\n' or the text has a visible character before its first '\n'. */
  lemma ConsKeepsNoBlankLine(c: char, tail: string)
    requires NoBlankLine(tail)
    requires c == '\n' ==> TextBeforeEachNewline(tail)
    ensures NoBlankLine([c] + tail)
  {
    var r := [c] + tail;
    forall i, j | 0 <= i < j < |r| && r[i] == '\n' && r[j] == '\n'
      ensures VisibleBetween(r, i + 1, j)
    {
      assert r[j] == tail[j - 1];
      if i == 0 {
        var k :| 0 <= k < j - 1 && !IsWhitespace(tail[k]);
        assert r[k + 1] == tail[k];
      } else {
        assert r[i] == tail[i - 1];
        var k :| i <= k < j - 1 && !IsWhitespace(tail[k]);
        assert r[k + 1] == tail[k];
      }
    }
  }

  /** `replace(/\n\s*\n/g, '\n')` removes every empty line: between two line breaks
      of its result there is always a visible character. */
  lemma {:induction false} RemoveBlankLinesLeavesNoBlankLine(s: string)
    ensures NoBlankLine(RemoveBlankLines(s))
    decreases |s|
  {
    if s != [] {
      var t := s[1..];
      if s[0] == '\n' && BlankLineEnd(t) > 0 {
        var e := BlankLineEnd(t);
        assert s[1 + e..] == t[e..];
        RemoveBlankLinesLeavesNoBlankLine(t[e..]);
        TextBeforeNewlineAfterRun(t, e);
        RemoveBlankLinesKeepsTextFirst(t[e..]);
        ConsKeepsNoBlankLine('\n', RemoveBlankLines(t[e..]));
        assert RemoveBlankLines(s) == ['\n'] + RemoveBlankLines(t[e..]);
      } else {
        RemoveBlankLinesLeavesNoBlankLine(t);
        if s[0] == '\n' {
          TextBeforeNewlineAfterRun(t, 0);
          assert t[0..] == t;
          RemoveBlankLinesKeepsTextFirst(t);
        }
        ConsKeepsNoBlankLine(s[0], RemoveBlankLines(t));
        assert RemoveBlankLines(s) == [s[0]] + RemoveBlankLines(t);
      }
    }
  }

  /** Dropping the first character keeps a text free of blank lines. */
  lemma NoBlankLineTail(s: string)
    requires s != [] && NoBlankLine(s)
    ensures NoBlankLine(s[1..])
  {
    var t := s[1..];
    forall i, j | 0 <= i < j < |t| && t[i] == '\n' && t[j] == '\n'
      ensures VisibleBetween(t, i + 1, j)
    {
      assert s[i + 1] == '\n' && s[j + 1] == '\n';
      var k :| i + 2 <= k < j + 1 && !IsWhitespace(s[k]);
      assert t[k - 1] == s[k];
    }
  }

  /** A match of `\n\s*\n` is a blank line: a text that opens with one has two
      line breaks with only whitespace between them. */
  lemma MatchIsBlankLine(s: string)
    requires s != [] && s[0] == '\n'
    ensures BlankLineEnd(s[1..]) > 0 ==> !NoBlankLine(s)
  {
    var t := s[1..];
    var e := BlankLineEnd(t);
    if e > 0 {
      assert s[e] == t[e - 1];
      forall k | 1 <= k < e ensures IsWhitespace(s[k]) {
        assert s[k] == t[..e][k - 1];
      }
      assert !VisibleBetween(s, 1, e);
    }
  }

  /** The replace leaves a text without blank lines as it is. */
  lemma {:induction false} RemoveBlankLinesKeepsCleanText(s: string)
    requires NoBlankLine(s)
    ensures RemoveBlankLines(s) == s
    decreases |s|
  {
    if s != [] {
      if s[0] == '\n' {
        MatchIsBlankLine(s);
      }
      NoBlankLineTail(s);
      RemoveBlankLinesKeepsCleanText(s[1..]);
      assert RemoveBlankLines(s) == [s[0]] + RemoveBlankLines(s[1..]);
    }
  }

  /** Text without a '\n' in front passes through the replace unchanged. */
  lemma {:induction false} RemoveBlankLinesAfterLineText(x: string, y: string)
    requires '\n' !in x
    ensures RemoveBlankLines(x + y) == x + RemoveBlankLines(y)
    decreases |x|
  {
    if x != [] {
      assert x[0] in x;
      assert '\n' !in x[1..] by {
        forall c | c in x[1..] ensures c != '\n' { assert c in x; }
      }
      assert x == [x[0]] + x[1..];
      RemoveBlankLinesKeep(x[0], x[1..] + y);
      ConcatAssoc([x[0]], x[1..], y);
      RemoveBlankLinesAfterLineText(x[1..], y);
      ConcatAssoc([x[0]], x[1..], RemoveBlankLines(y));
    } else {
      assert x + y == y;
    }
  }

  /** `NewlineEnd` only looks at the first `n` characters. */
  lemma {:induction false} NewlineEndPrefix(s: string, y: string, n: nat)
    requires n <= |s|
    ensures NewlineEnd(s + y, n) == NewlineEnd(s, n)
    decreases n
  {
    if n > 0 {
      assert (s + y)[n - 1] == s[n - 1];
      NewlineEndPrefix(s, y, n - 1);
    }
  }

  /** A match that starts before a text ending in a visible character ends inside it. */
  lemma BlankLineEndBeforeText(t: string, r: string)
    requires t != [] && !IsWhitespace(t[|t| - 1])
    ensures BlankLineEnd(t + r) == BlankLineEnd(t)
    ensures BlankLineEnd(t) < |t|
  {
    TrimStartConcat(t, r);
    TrimStartKeepsLast(t);
    NewlineEndPrefix(t, r, |t| - |TrimStart(t)|);
  }

  /** A match that starts before a whitespace run followed by text ends inside the run. */
  lemma BlankLineEndOfRun(w: string, b: string)
    requires AllWhitespace(w)
    requires b == [] || !IsWhitespace(b[0])
    ensures BlankLineEnd(w + b) == BlankLineEnd(w)
    ensures '\n' !in w[BlankLineEnd(w)..]
  {
    TrimStartOverWhitespace(w, b);
    TrimStartOverWhitespace(w, []);
    assert w + [] == w;
    NewlineEndPrefix(w, b, |w|);
    var e := BlankLineEnd(w);
    forall c | c in w[e..] ensures c != '\n' {
      var i :| 0 <= i < |w[e..]| && w[e..][i] == c;
      assert w[e + i] == c;
    }
  }

  /** One step of the replace: a character that starts no match is kept. */
  lemma RemoveBlankLinesKeep(c: char, u: string)
    requires !(c == '\n' && BlankLineEnd(u) > 0)
    ensures RemoveBlankLines([c] + u) == [c] + RemoveBlankLines(u)
  {
    var s := [c] + u;
    assert s[0] == c && s[1..] == u;
  }

  /** One step of the replace: a '\n' that starts a match stands for the whole match. */
  lemma RemoveBlankLinesMatch(u: string)
    requires BlankLineEnd(u) > 0
    ensures RemoveBlankLines("\n" + u) == "\n" + RemoveBlankLines(u[BlankLineEnd(u)..])
  {
    var s := "\n" + u;
    assert s[0] == '\n' && s[1..] == u && s[1 + BlankLineEnd(u)..] == u[BlankLineEnd(u)..];
  }

  /** The step of `RemoveBlankLinesSplit` where a '\n' opens a match that ends inside
      `t`, given the split of what follows the match. */
  lemma SplitAfterMatch(t: string, r: string, e: nat)
    requires 0 < e < |t| && BlankLineEnd(t) == e && BlankLineEnd(t + r) == e
    requires RemoveBlankLines(t[e..] + r) == RemoveBlankLines(t[e..]) + RemoveBlankLines(r)
    ensures RemoveBlankLines("\n" + t + r) == RemoveBlankLines("\n" + t) + RemoveBlankLines(r)
  {
    RemoveBlankLinesMatch(t + r);
    RemoveBlankLinesMatch(t);
    DropConcat(t, r, e);
    ConcatAssoc("\n", t, r);
    ConcatAssoc("\n", RemoveBlankLines(t[e..]), RemoveBlankLines(r));
  }

  /** The step of `RemoveBlankLinesSplit` where the first character `c` is kept,
      given the split of the rest. */
  lemma SplitAfterKept(c: char, t: string, r: string)
    requires !(c == '\n' && BlankLineEnd(t) > 0)
    requires !(c == '\n' && BlankLineEnd(t + r) > 0)
    requires RemoveBlankLines(t + r) == RemoveBlankLines(t) + RemoveBlankLines(r)
    ensures RemoveBlankLines([c] + t + r) == RemoveBlankLines([c] + t) + RemoveBlankLines(r)
  {
    RemoveBlankLinesKeep(c, t + r);
    RemoveBlankLinesKeep(c, t);
    ConcatAssoc([c], t, r);
    ConcatAssoc([c], RemoveBlankLines(t), RemoveBlankLines(r));
  }

  /** `RemoveBlankLinesSplit` for `a`, given it for what follows `a`'s first step. */
  lemma SplitStep(a: string, r: string)
    requires a != []
    requires a[0] == '\n' ==> BlankLineEnd(a[1..] + r) == BlankLineEnd(a[1..]) < |a[1..]|
    requires a[0] == '\n' && BlankLineEnd(a[1..]) > 0 ==>
      var rest := a[1..][BlankLineEnd(a[1..])..];
      RemoveBlankLines(rest + r) == RemoveBlankLines(rest) + RemoveBlankLines(r)
    requires !(a[0] == '\n' && BlankLineEnd(a[1..]) > 0) ==>
      RemoveBlankLines(a[1..] + r) == RemoveBlankLines(a[1..]) + RemoveBlankLines(r)
    ensures RemoveBlankLines(a + r) == RemoveBlankLines(a) + RemoveBlankLines(r)
  {
    var c, t := a[0], a[1..];
    assert a == [c] + t;
    if c == '\n' && BlankLineEnd(t) > 0 {
      SplitAfterMatch(t, r, BlankLineEnd(t));
    } else {
      SplitAfterKept(c, t, r);
    }
  }

  /** No match crosses a visible character at the end of `a`: the replace treats
      `a` and what follows it separately. */
  lemma {:induction false} RemoveBlankLinesSplit(a: string, r: string)
    requires a == [] || !IsWhitespace(a[|a| - 1])
    ensures RemoveBlankLines(a + r) == RemoveBlankLines(a) + RemoveBlankLines(r)
    decreases |a|
  {
    if a == [] {
      assert a + r == r;
    } else {
      var t := a[1..];
      if a[0] == '\n' {
        assert t != [] && t[|t| - 1] == a[|a| - 1];
        BlankLineEndBeforeText(t, r);
      }
      if a[0] == '\n' && BlankLineEnd(t) > 0 {
        var e := BlankLineEnd(t);
        assert t[e..] != [] && t[e..][|t[e..]| - 1] == a[|a| - 1];
        RemoveBlankLinesSplit(t[e..], r);
      } else {
        assert t == [] || t[|t| - 1] == a[|a| - 1];
        RemoveBlankLinesSplit(t, r);
      }
      SplitStep(a, r);
    }
  }

  /** A line break before the whitespace run `w` and then text `b`: the line break
      stays, `w` loses everything up to its last '\n', and `b` follows. */
  lemma RemoveBlankLinesAfterBreak(w: string, b: string)
    requires AllWhitespace(w)
    requires b == [] || !IsWhitespace(b[0])
    ensures RemoveBlankLines("\n" + w + b) == "\n" + (w[BlankLineEnd(w)..] + RemoveBlankLines(b))
  {
    ConcatAssoc("\n", w, b);
    BlankLineEndOfRun(w, b);
    var e := BlankLineEnd(w);
    if e > 0 {
      RemoveBlankLinesMatch(w + b);
      DropConcat(w, b, e);
    } else {
      RemoveBlankLinesKeep('\n', w + b);
      assert w[e..] == w;
    }
    RemoveBlankLinesAfterLineText(w[e..], b);
  }

  /** What the replace does to one line break followed by a whitespace run `w`
      between text `a` and text `b`: the line break stays, the run loses everything
      up to its last '\n' (nothing when it has none), and `a` and `b` are kept, each
      with its own blank lines removed. */
  lemma RemoveBlankLinesAroundMatch(a: string, w: string, b: string)
    requires a == [] || !IsWhitespace(a[|a| - 1])
    requires AllWhitespace(w)
    requires b == [] || !IsWhitespace(b[0])
    ensures RemoveBlankLines(a + "\n" + w + b)
         == RemoveBlankLines(a) + "\n" + w[BlankLineEnd(w)..] + RemoveBlankLines(b)
  {
    var u := "\n" + w + b;
    ConcatAssoc(a, "\n" + w, b);
    ConcatAssoc(a, "\n", w);
    RemoveBlankLinesSplit(a, u);
    RemoveBlankLinesAfterBreak(w, b);
    var front, middle, back := RemoveBlankLines(a), w[BlankLineEnd(w)..], RemoveBlankLines(b);
    ConcatAssoc("\n", middle, back);
    ConcatAssoc(front, "\n" + middle, back);
    ConcatAssoc(front, "\n", middle);
  }

  /** The three steps of content.js's cleanup, in order. */
  function CleanText(s: string): (r: string)
    ensures Trimmed(r) && |r| <= |s|
  {
    Trim(RemoveBlankLines(CollapseWhitespace(s)))
  }

  /** The cleaned text has no whitespace at either end, every whitespace character
      in it is a lone space, so no line break survives, and it is no longer than the input. */
  lemma CleanTextShape(s: string)
    ensures var r := CleanText(s);
      Trimmed(r) && SingleSpaced(r) && '\n' !in r && |r| <= |s|
  {
    var collapsed := CollapseWhitespace(s);
    CollapseIsSingleSpaced(s);
    BlankLineRemovalIsNoOp(s);
    assert CleanText(s) == Trim(collapsed);
    TrimSingleSpaced(collapsed);
    SingleSpacedHasNoNewline(Trim(collapsed));
  }

  lemma SingleSpacedHasNoNewline(s: string)
    requires SingleSpaced(s)
    ensures '\n' !in s
  {
    if '\n' in s {
      var i :| 0 <= i < |s| && s[i] == '\n';
      assert IsWhitespace(s[i]);
    }
  }

  lemma SingleSpacedSlice(s: string, i: nat, j: nat)
    requires SingleSpaced(s) && i <= j <= |s|
    ensures SingleSpaced(s[i..j])
  {
    var t := s[i..j];
    forall k | 0 < k < |t| && IsWhitespace(t[k]) ensures !IsWhitespace(t[k - 1]) {
      assert t[k] == s[i + k] && t[k - 1] == s[i + k - 1];
    }
  }

  lemma TrimSingleSpaced(s: string)
    requires SingleSpaced(s)
    ensures SingleSpaced(Trim(s))
  {
    var t := TrimStart(s);
    SingleSpacedSlice(s, |s| - |t|, |s|);
    var r := TrimEnd(t);
    SingleSpacedSlice(t, 0, |r|);
    assert t[0..|r|] == r;
  }

  /** The blank-line replace changes nothing once no '\n' is left: after the
      whitespace collapse it is a no-op. */
  lemma {:induction false} RemoveBlankLinesWithoutNewline(s: string)
    requires '\n' !in s
    ensures RemoveBlankLines(s) == s
    decreases |s|
  {
    if s != [] {
      assert '\n' !in s[1..] by {
        forall c | c in s[1..] ensures c != '\n' { assert c in s; }
      }
      RemoveBlankLinesWithoutNewline(s[1..]);
    }
  }

  /** The blank-line replace never changes what the whitespace collapse produced. */
  lemma BlankLineRemovalIsNoOp(s: string)
    ensures RemoveBlankLines(CollapseWhitespace(s)) == CollapseWhitespace(s)
  {
    CollapseIsSingleSpaced(s);
    SingleSpacedHasNoNewline(CollapseWhitespace(s));
    RemoveBlankLinesWithoutNewline(CollapseWhitespace(s));
  }

  /** A single-spaced text is its own collapse. */
  lemma {:induction false} CollapseSingleSpaced(s: string)
    requires SingleSpaced(s)
    ensures CollapseWhitespace(s) == s
    decreases |s|
  {
    if s != [] {
      var tail := s[1..];
      assert s == [s[0]] + tail;
      SingleSpacedSlice(s, 1, |s|);
      CollapseSingleSpaced(tail);
      if IsWhitespace(s[0]) {
        assert s[0] == ' ';
        assert tail != [] ==> tail[0] == s[1] && !IsWhitespace(tail[0]);
        CollapseRun([s[0]], tail);
      } else {
        CollapseVisibleHead([s[0]], tail);
        assert [s[0]][1..] + tail == tail;
      }
    }
  }

  /** Running the cleanup twice gives the same text as running it once. */
  lemma CleanTextIdempotent(s: string)
    ensures CleanText(CleanText(s)) == CleanText(s)
  {
    var r := CleanText(s);
    CleanTextShape(s);
    CollapseSingleSpaced(r);
    RemoveBlankLinesWithoutNewline(r);
  }

  lemma {:induction false} VisibleConcat(a: string, b: string)
    ensures Visible(a + b) == Visible(a) + Visible(b)
    decreases |a|
  {
    if a == [] {
      assert a + b == b;
    } else {
      assert (a + b)[0] == a[0];
      assert (a + b)[1..] == a[1..] + b;
      VisibleConcat(a[1..], b);
    }
  }

  lemma {:induction false} VisibleOfWhitespace(s: string)
    requires AllWhitespace(s)
    ensures Visible(s) == ""
    decreases |s|
  {
    if s != [] {
      VisibleOfWhitespace(s[1..]);
    }
  }

  lemma TrimStartKeepsVisible(s: string)
    ensures Visible(TrimStart(s)) == Visible(s)
  {
    var t := TrimStart(s);
    TrimStartSkipsWhitespace(s);
    assert s == s[..|s| - |t|] + t;
    VisibleConcat(s[..|s| - |t|], t);
    VisibleOfWhitespace(s[..|s| - |t|]);
  }

  lemma TrimEndKeepsVisible(s: string)
    ensures Visible(TrimEnd(s)) == Visible(s)
  {
    var t := TrimEnd(s);
    TrimEndSkipsWhitespace(s);
    assert s == t + s[|t|..];
    VisibleConcat(t, s[|t|..]);
    VisibleOfWhitespace(s[|t|..]);
  }

  /** Collapsing whitespace keeps every visible character, in order. */
  lemma {:induction false} CollapseKeepsVisible(s: string)
    ensures Visible(CollapseWhitespace(s)) == Visible(s)
    decreases |s|
  {
    if s != [] {
      var r := CollapseWhitespace(s);
      if IsWhitespace(s[0]) {
        var t := TrimStart(s[1..]);
        CollapseKeepsVisible(t);
        TrimStartKeepsVisible(s[1..]);
        VisibleConcat(" ", CollapseWhitespace(t));
      } else {
        CollapseKeepsVisible(s[1..]);
        VisibleConcat([s[0]], CollapseWhitespace(s[1..]));
      }
    }
  }

  /** The cleanup only removes or rewrites whitespace: the visible text survives unchanged. */
  lemma CleanTextKeepsVisible(s: string)
    ensures Visible(CleanText(s)) == Visible(s)
  {
    var c := CollapseWhitespace(s);
    CollapseKeepsVisible(s);
    CollapseIsSingleSpaced(s);
    SingleSpacedHasNoNewline(c);
    RemoveBlankLinesWithoutNewline(c);
    TrimStartKeepsVisible(c);
    TrimEndKeepsVisible(TrimStart(c));
  }
}

=== FILE: extraction.dfy ===
/**
 * The content extractor of content.js (`extractPageContent`): an ordered
 * cascade of tiers that turns a page into a text snapshot with a provenance tag.
 *
 * The page is abstract: the model receives, per landmark selector, the
 * element `document.querySelector` returns for it, the body's text with and
 * without its non-content regions, the texts of the paragraph, heading and
 * list-item elements in document order, and the root element's text.
 */
module ContentExtraction {
  import opened Wrappers
  import opened JsText
  import opened Cleanup

  /** The landmark selectors, probed in this order. */
  const Selectors: seq<string> := [
    "main", "article", "[role=\"main\"]", ".content", ".main-content", "#content",
    "#main", ".post-content", ".entry-content", ".article-content", ".page-content"
  ]

  /** Regions removed from a copy of the body before the filtered-body tier reads its text. */
  const RemovedRegions: seq<string> := [
    "nav", "header", "footer", "aside",
    ".nav", ".navigation", ".header", ".footer", ".sidebar",
    ".menu", ".ads", ".advertisement", ".social-media",
    ".comments", ".comment-section", ".related-posts",
    "script", "style", "noscript", "iframe",
    "[role=\"banner\"]", "[role=\"navigation\"]", "[role=\"contentinfo\"]",
    ".cookie-notice", ".popup", ".modal", ".overlay"
  ]

  /** A landmark wins when its trimmed text is longer than this. */
  const LandmarkThreshold := 100
  /** Cleaned text shorter than this falls through to the paragraph tier. */
  const CleanThreshold := 50
  /** Text shorter than this falls through to the raw-document tier. */
  const RawThreshold := 20
  /** A paragraph fragment is kept when its trimmed text is longer than this. */
  const FragmentThreshold := 10
  const MaxLength := 4000
  const TruncationMarker := "...[content truncated]"
  const NoContentText := "No readable content found"
  const ErrorContent := "Error: Could not extract page content. This might be a protected page or the content is dynamically loaded."
  const UntitledTitle := "Untitled Page"
  const ErrorTitle := "Error"

  /** The first element a landmark selector matches. Only HTML elements have
      `innerText`; on an SVG or MathML element it reads as `undefined`. */
  datatype Element = HtmlElement(innerText: string) | ForeignElement

  /** `document.body`: its `innerText`, and the `innerText` of a copy with `RemovedRegions` taken out. */
  datatype Body = Body(text: string, filteredText: string)

  datatype Document = Document(
    title: string,                  // document.title
    url: string,                    // window.location.href
    landmarks: map<string, Element>, // selector -> its first match; absent when nothing matches
    body: Option<Body>,             // None when document.body is null
    fragments: seq<string>,         // innerText of each p, h1-h6 and li, in document order
    rootText: string                // document.documentElement.innerText
  )

  /** The `contentSource` tag: which tier produced the text. `Landmark` carries
      the selector string itself, which is what the script stores. */
  datatype Source = Fallback | Landmark(selector: string) | BodyFiltered | Paragraphs | DocumentText | Failure {
    /** The string the script stores in `contentSource`. */
    function Name(): string {
      match this
      case Fallback => "fallback"
      case Landmark(selector) => selector
      case BodyFiltered => "body-filtered"
      case Paragraphs => "paragraphs"
      case DocumentText => "document-text"
      case Failure => "error"
    }
  }

  /** The snapshot returned to the side panel. */
  datatype PageData = PageData(
    title: string,
    url: string,
    content: string,
    contentSource: Source,
    timestamp: int,
    success: bool,
    error: Option<string>
  )

  /** A candidate text and the tier that produced it. */
  datatype Draft = Draft(text: string, source: Source)

  /** The TypeErrors the script can throw: calling `trim` on the `undefined`
      `innerText` of a non-HTML landmark (content.js:30), and reading `cloneNode`
      (content.js:39) or `innerText` (content.js:83) of a null `document.body`. */
  datatype Fault = UndefinedInnerText | NullBodyClone | NullBodyText {
    /** The error's `message`, in the wording of Chrome's JavaScript engine. */
    function Message(): (m: string)
      ensures m != ""
    {
      match this
      case UndefinedInnerText => "Cannot read properties of undefined (reading 'trim')"
      case NullBodyClone => "Cannot read properties of null (reading 'cloneNode')"
      case NullBodyText => "Cannot read properties of null (reading 'innerText')"
    }
  }

  /** Selector `k` matches an HTML element whose trimmed text is longer than `LandmarkThreshold`. */
  predicate LandmarkQualifies(landmarks: map<string, Element>, k: nat)
    requires k < |Selectors|
  {
    && Selectors[k] in landmarks && landmarks[Selectors[k]].HtmlElement?
    && |Trim(landmarks[Selectors[k]].innerText)| > LandmarkThreshold
  }

  /** Selector `k` matches an element without `innerText`, so testing it throws. */
  predicate LandmarkThrows(landmarks: map<string, Element>, k: nat)
    requires k < |Selectors|
  {
    Selectors[k] in landmarks && landmarks[Selectors[k]].ForeignElement?
  }

  /** The landmark loop ends at selector `k`, by `break` or by a throw. */
  predicate LandmarkStops(landmarks: map<string, Element>, k: nat)
    requires k < |Selectors|
  {
    LandmarkQualifies(landmarks, k) || LandmarkThrows(landmarks, k)
  }

  /** The first selector at or after `from`, in list order, where the landmark loop ends. */
  function FirstLandmark(landmarks: map<string, Element>, from: nat): (r: Option<nat>)
    requires from <= |Selectors|
    ensures r.Some? ==> from <= r.value < |Selectors| && LandmarkStops(landmarks, r.value)
    ensures forall k :: from <= k < |Selectors| && (r.None? || k < r.value) ==> !LandmarkStops(landmarks, k)
    decreases |Selectors| - from
  {
    if from == |Selectors| then None
    else if LandmarkStops(landmarks, from) then Some(from)
    else FirstLandmark(landmarks, from + 1)
  }

  /** One selector of the landmark loop: it either ends the loop or hands over to the next. */
  lemma FirstLandmarkStep(landmarks: map<string, Element>, i: nat)
    requires i < |Selectors|
    ensures LandmarkStops(landmarks, i) ==> FirstLandmark(landmarks, i) == Some(i)
    ensures !LandmarkStops(landmarks, i) ==> FirstLandmark(landmarks, i) == FirstLandmark(landmarks, i + 1)
  {
  }

  /** The landmark and filtered-body tiers (content.js:24-59); `Err` when the loop
      reaches an element without `innerText`, or when the body copy is needed and
      `document.body` is null. */
  function PrimaryDraft(doc: Document): (r: Result<Draft, Fault>)
    ensures r.Ok? ==> r.value.source.Landmark? || r.value.source == BodyFiltered
    ensures r.Ok? && r.value.source.Landmark? ==> |Trim(r.value.text)| > LandmarkThreshold
    ensures r.Err? ==> r.error == UndefinedInnerText || (r.error == NullBodyClone && doc.body.None?)
  {
    match FirstLandmark(doc.landmarks, 0)
    case Some(k) =>
      if LandmarkThrows(doc.landmarks, k) then Err(UndefinedInnerText)
      else Ok(Draft(doc.landmarks[Selectors[k]].innerText, Landmark(Selectors[k])))
    case None =>
      if doc.body.None? then Err(NullBodyClone)
      else Ok(Draft(doc.body.value.filteredText, BodyFiltered))
  }

  /** The trimmed paragraph fragments longer than `FragmentThreshold`, in document order. */
  function KeptFragments(fragments: seq<string>): (kept: seq<string>)
    ensures |kept| <= |fragments|
  {
    if fragments == [] then []
    else
      var rest := KeptFragments(fragments[..|fragments| - 1]);
      var text := Trim(fragments[|fragments| - 1]);
      if |text| > FragmentThreshold then rest + [text] else rest
  }

  /** Every kept fragment is longer than `FragmentThreshold` and has no whitespace at either end. */
  lemma {:induction false} KeptFragmentsTrimmed(fragments: seq<string>)
    ensures forall t :: t in KeptFragments(fragments) ==> |t| > FragmentThreshold && Trimmed(t)
    decreases |fragments|
  {
    if fragments != [] {
      var init := fragments[..|fragments| - 1];
      var text := Trim(fragments[|fragments| - 1]);
      KeptFragmentsTrimmed(init);
      if |text| > FragmentThreshold {
        assert KeptFragments(fragments) == KeptFragments(init) + [text];
      } else {
        assert KeptFragments(fragments) == KeptFragments(init);
      }
    }
  }

  /** content.js:77: the kept fragments joined with '\n'. This, `ParagraphTier` and
      `RawTier` are the reference definitions that the steps `ParagraphStep` and
      `RawStep` of `ExtractPageContent` are proved equal to; their properties are
      the lemmas of `ExtractionProperties`. */
  function ParagraphText(fragments: seq<string>): string {
    Join(KeptFragments(fragments), "\n")
  }

  /** `document.body.innerText || document.documentElement.innerText || 'No readable content found'`. */
  function RawText(body: Body, rootText: string): (r: string)
    ensures r != ""
    ensures body.text != "" ==> r == body.text
    ensures body.text == "" && rootText != "" ==> r == rootText
    ensures body.text == "" && rootText == "" ==> r == NoContentText
  {
    if body.text != "" then body.text
    else if rootText != "" then rootText
    else NoContentText
  }

  /** content.js:68-79: the paragraph tier replaces cleaned text shorter than `CleanThreshold`. */
  function ParagraphTier(doc: Document, cleaned: string, source: Source): Draft {
    if |cleaned| < CleanThreshold then Draft(ParagraphText(doc.fragments), Paragraphs)
    else Draft(cleaned, source)
  }

  /** content.js:82-85: the raw-document tier replaces text shorter than `RawThreshold`;
      reading the text of a null body throws. */
  function RawTier(doc: Document, draft: Draft): Result<Draft, Fault> {
    if |draft.text| >= RawThreshold then Ok(draft)
    else if doc.body.None? then Err(NullBodyText)
    else Ok(Draft(RawText(doc.body.value, doc.rootText), DocumentText))
  }

  /** The text and source after every tier, before truncation (content.js:24-85). */
  function SettledDraft(doc: Document): (r: Result<Draft, Fault>)
    ensures r.Ok? ==> |r.value.text| >= RawThreshold || r.value.source == DocumentText
    ensures r.Err? ==> r.error == UndefinedInnerText || doc.body.None?
  {
    match PrimaryDraft(doc)
    case Err(e) => Err(e)
    case Ok(primary) => RawTier(doc, ParagraphTier(doc, CleanText(primary.text), primary.source))
  }

  /** The length cap: at most `MaxLength` characters of the text, then the marker when something was cut. */
  function Truncate(s: string): (r: string)
    ensures |s| <= MaxLength ==> r == s
    ensures |s| > MaxLength ==> |r| == MaxLength + |TruncationMarker| && r[..MaxLength] == s[..MaxLength]
                                && r[MaxLength..] == TruncationMarker
    ensures |r| > MaxLength <==> |s| > MaxLength
  {
    if |s| > MaxLength then Prefix(s, MaxLength) + TruncationMarker else s
  }

  /** The record built by the catch block. */
  function ErrorPage(doc: Document, now: int, fault: Fault): (page: PageData)
    ensures !page.success && page.contentSource == Failure
    ensures page.error.Some? && page.error.value != "" && page.title != ""
    ensures page.url == doc.url && page.timestamp == now
  {
    PageData(if doc.title != "" then doc.title else ErrorTitle, doc.url, ErrorContent, Failure, now, false, Some(fault.Message()))
  }

  /** The snapshot `extractPageContent` returns for `doc` at time `now`. */
  function Extract(doc: Document, now: int): (page: PageData)
    ensures page.success <==> SettledDraft(doc).Ok?
    ensures page.url == doc.url && page.timestamp == now && page.title != ""
  {
    match SettledDraft(doc)
    case Err(e) => ErrorPage(doc, now, e)
    case Ok(draft) =>
      PageData(if doc.title != "" then doc.title else UntitledTitle, doc.url,
               Truncate(draft.text), draft.source, now, true, None)
  }

  /** content.js:24-35: the landmark loop. It stops at the first selector whose
      element's trimmed text is longer than `LandmarkThreshold` and keeps that
      element's untrimmed text, or throws at the first element without `innerText`;
      ("", "fallback") when it runs to the end. */
  method ProbeLandmarks(landmarks: map<string, Element>) returns (r: Result<Draft, Fault>)
    ensures FirstLandmark(landmarks, 0).None? ==> r == Ok(Draft("", Fallback))
    ensures FirstLandmark(landmarks, 0).Some? ==>
              var k := FirstLandmark(landmarks, 0).value;
              && (LandmarkThrows(landmarks, k) ==> r == Err(UndefinedInnerText))
              && (!LandmarkThrows(landmarks, k) ==>
                    r == Ok(Draft(landmarks[Selectors[k]].innerText, Landmark(Selectors[k]))))
    ensures r.Ok? ==> r.value.text == "" || |r.value.text| > LandmarkThreshold
  {
    var i := 0;
    while i < |Selectors|
      invariant i <= |Selectors|
      invariant FirstLandmark(landmarks, i) == FirstLandmark(landmarks, 0)
    {
      FirstLandmarkStep(landmarks, i);
      var selector := Selectors[i];
      if selector in landmarks {
        var element := landmarks[selector];
        if element.ForeignElement? {
          return Err(UndefinedInnerText);
        }
        if |Trim(element.innerText)| > LandmarkThreshold {
          assert |element.innerText| > LandmarkThreshold;
          return Ok(Draft(element.innerText, Landmark(selector)));
        }
      }
      i := i + 1;
    }
    r := Ok(Draft("", Fallback));
  }

  /** content.js:69-76: the trimmed texts longer than `FragmentThreshold`, pushed in document order. */
  method CollectParagraphs(fragments: seq<string>) returns (textParts: seq<string>)
    ensures textParts == KeptFragments(fragments)
  {
    textParts := [];
    for j := 0 to |fragments|
      invariant textParts == KeptFragments(fragments[..j])
    {
      var text := Trim(fragments[j]);
      KeptFragmentsStep(fragments, j);
      if |text| > FragmentThreshold {
        textParts := textParts + [text];
      }
    }
    assert fragments[..|fragments|] == fragments;
  }

  /** Taking one more fragment extends the kept list by its trimmed text when that is long enough. */
  lemma KeptFragmentsStep(fragments: seq<string>, j: nat)
    requires j < |fragments|
    ensures KeptFragments(fragments[..j + 1]) ==
            var text := Trim(fragments[j]);
            if |text| > FragmentThreshold then KeptFragments(fragments[..j]) + [text] else KeptFragments(fragments[..j])
  {
    assert fragments[..j + 1][..j] == fragments[..j];
    assert fragments[..j + 1][j] == fragments[j];
  }

  /** content.js:24-59: the landmark tier, then the filtered-body tier when no
      landmark qualified. A landmark without `innerText` and cloning a null body throw. */
  method PrimaryTiers(doc: Document) returns (r: Result<Draft, Fault>)
    ensures r == PrimaryDraft(doc)
  {
    var probe := ProbeLandmarks(doc.landmarks);
    if probe.Err? {
      return Err(probe.error);
    }
    var mainContent, contentSource := probe.value.text, probe.value.source;
    if mainContent == "" || |mainContent| < LandmarkThreshold {
      if doc.body.None? {
        return Err(NullBodyClone);
      }
      mainContent := doc.body.value.filteredText;
      contentSource := BodyFiltered;
    }
    r := Ok(Draft(mainContent, contentSource));
  }

  /** content.js:68-79: when the cleaned text is shorter than `CleanThreshold`, the
      kept paragraph fragments joined by newlines replace it. */
  method ParagraphStep(doc: Document, mainContent: string, contentSource: Source) returns (draft: Draft)
    ensures draft == ParagraphTier(doc, mainContent, contentSource)
  {
    draft := Draft(mainContent, contentSource);
    if mainContent == "" || |mainContent| < CleanThreshold {
      var textParts := CollectParagraphs(doc.fragments);
      draft := Draft(Join(textParts, "\n"), Paragraphs);
    }
  }

  /** content.js:82-85: when the text is shorter than `RawThreshold`, the body text
      (or the root text, or the fixed notice) replaces it; a null body throws. */
  method RawStep(doc: Document, draft: Draft) returns (r: Result<Draft, Fault>)
    ensures r == RawTier(doc, draft)
  {
    if draft.text == "" || |draft.text| < RawThreshold {
      if doc.body.None? {
        return Err(NullBodyText);
      }
      var body := doc.body.value;
      return Ok(Draft(RawText(body, doc.rootText), DocumentText));
    }
    r := Ok(draft);
  }

  /** content.js:3-120, step by step as the script runs it; a throw becomes the
      error snapshot of the catch block. */
  method ExtractPageContent(doc: Document, now: int) returns (page: PageData)
    ensures page == Extract(doc, now)
  {
    var title := if doc.title != "" then doc.title else UntitledTitle;
    var primary := PrimaryTiers(doc);
    if primary.Err? {
      return ErrorPage(doc, now, primary.error);
    }
    var mainContent := CleanText(primary.value.text);
    var draft := ParagraphStep(doc, mainContent, primary.value.source);
    var settled := RawStep(doc, draft);
    if settled.Err? {
      return ErrorPage(doc, now, settled.error);
    }
    mainContent := settled.value.text;
    if |mainContent| > MaxLength {
      mainContent := Prefix(mainContent, MaxLength) + TruncationMarker;
    }
    page := PageData(title, doc.url, mainContent, settled.value.source, now, true, None);
  }
}

/** What the cascade promises about the snapshots it produces. */
module ExtractionProperties {
  import opened Wrappers
  import opened JsText
  import opened Cleanup
  import opened ContentExtraction

  /** The landmark tier takes the first selector, in list order, whose element
      qualifies, keeps that element's untrimmed text and tags it with the selector,
      provided no earlier selector matched an element without `innerText`. */
  lemma LandmarkTierPicksFirst(doc: Document, k: nat)
    requires k < |Selectors| && LandmarkQualifies(doc.landmarks, k)
    requires forall j :: 0 <= j < k ==> !LandmarkStops(doc.landmarks, j)
    ensures PrimaryDraft(doc) == Ok(Draft(doc.landmarks[Selectors[k]].innerText, Landmark(Selectors[k])))
  {
    var first := FirstLandmark(doc.landmarks, 0);
    assert LandmarkStops(doc.landmarks, k) && !LandmarkThrows(doc.landmarks, k);
    assert first.Some? && first.value <= k;
    assert LandmarkStops(doc.landmarks, first.value);
  }

  /** The filtered body is read exactly when the landmark loop runs to its end (and the body exists). */
  lemma FilteredBodyOnlyWithoutLandmark(doc: Document)
    ensures PrimaryDraft(doc).Ok? && PrimaryDraft(doc).value.source == BodyFiltered
            <==> doc.body.Some? && forall k :: 0 <= k < |Selectors| ==> !LandmarkStops(doc.landmarks, k)
    ensures PrimaryDraft(doc).Ok? && PrimaryDraft(doc).value.source == BodyFiltered ==>
              PrimaryDraft(doc).value.text == doc.body.value.filteredText
  {
  }

  lemma JoinNonEmpty(parts: seq<string>, sep: string)
    requires parts != [] && parts[0] != []
    ensures Join(parts, sep) != [] && Join(parts, sep)[0] == parts[0][0]
  {
    var r := Join(parts, sep);
    assert r[..|parts[0]|] == parts[0];
  }

  lemma JoinEndsWithLast(parts: seq<string>, sep: string)
    requires parts != [] && parts[|parts| - 1] != []
    ensures var r := Join(parts, sep); var last := parts[|parts| - 1];
      r != [] && r[|r| - 1] == last[|last| - 1]
  {
    var r := Join(parts, sep);
    var last := parts[|parts| - 1];
    assert r[|r| - |last|..] == last;
    assert r[|r| - 1] == r[|r| - |last|..][|last| - 1];
  }

  /** A join whose first and last parts are non-empty and trimmed is itself trimmed. */
  lemma JoinTrimmed(parts: seq<string>, sep: string)
    requires parts != [] && parts[0] != [] && parts[|parts| - 1] != []
    requires Trimmed(parts[0]) && Trimmed(parts[|parts| - 1])
    ensures Join(parts, sep) != [] && Trimmed(Join(parts, sep))
  {
    JoinNonEmpty(parts, sep);
    JoinEndsWithLast(parts, sep);
  }

  /** The paragraph text is empty when no fragment is kept; otherwise it is longer
      than one kept fragment's minimum and has no whitespace at either end. */
  lemma ParagraphTextShape(fragments: seq<string>)
    ensures ParagraphText(fragments) == "" <==> KeptFragments(fragments) == []
    ensures ParagraphText(fragments) != "" ==>
              |ParagraphText(fragments)| > FragmentThreshold && Trimmed(ParagraphText(fragments))
  {
    var parts := KeptFragments(fragments);
    KeptFragmentsTrimmed(fragments);
    if parts != [] {
      assert parts[0] in parts && parts[|parts| - 1] in parts;
      assert |parts[0]| > FragmentThreshold && Trimmed(parts[0]);
      assert |parts[|parts| - 1]| > FragmentThreshold && Trimmed(parts[|parts| - 1]);
      JoinTrimmed(parts, "\n");
    }
  }

  /** A settled draft holds text and names a real tier. */
  lemma SettledDraftShape(doc: Document)
    ensures SettledDraft(doc).Ok? ==>
              var d := SettledDraft(doc).value;
              && d.text != "" && d.source != Fallback && d.source != Failure
              && (d.source.Landmark? ==> d.source.selector in Selectors)
  {
    match PrimaryDraft(doc)
    case Err(_) =>
    case Ok(primary) =>
      assert primary.source != Fallback && primary.source != Failure;
      PrimarySelectorProbed(doc);
  }

  /** A landmark tag names one of the probed selectors. */
  lemma PrimarySelectorProbed(doc: Document)
    requires PrimaryDraft(doc).Ok?
    ensures PrimaryDraft(doc).value.source.Landmark? ==> PrimaryDraft(doc).value.source.selector in Selectors
  {
    var first := FirstLandmark(doc.landmarks, 0);
    if first.Some? {
      assert Selectors[first.value] in Selectors;
    }
  }

  /** Every successful snapshot carries non-empty content of bounded length and
      names the tier that produced it; the initial 'fallback' tag never survives, and
      the title defaults to 'Untitled Page'. */
  lemma SuccessfulSnapshot(doc: Document, now: int)
    ensures var page := Extract(doc, now);
      page.success ==>
        && page.content != ""
        && |page.content| <= MaxLength + |TruncationMarker|
        && page.contentSource != Fallback && page.contentSource != Failure
        && page.contentSource.Name() != "fallback" && page.contentSource.Name() != "error"
        && page.title == (if doc.title != "" then doc.title else UntitledTitle)
        && page.url == doc.url && page.error.None?
  {
    SettledDraftShape(doc);
    var source := Extract(doc, now).contentSource;
    if source.Landmark? && source.selector in Selectors { SelectorIsNoTierName(source.selector); }
  }

  /** A snapshot fails exactly when the cascade throws. With a body present the only
      throw is a landmark element without `innerText`; without one, the tiers that read
      the body throw too. A failed snapshot is the catch block's record. */
  lemma FailedSnapshot(doc: Document, now: int)
    ensures var page := Extract(doc, now);
      && (!page.success <==> SettledDraft(doc).Err?)
      && (var first := FirstLandmark(doc.landmarks, 0);
          && (first.Some? && LandmarkThrows(doc.landmarks, first.value) ==>
                !page.success && page.error == Some(UndefinedInnerText.Message()))
          && (doc.body.Some? && !page.success ==> first.Some? && LandmarkThrows(doc.landmarks, first.value))
          && (doc.body.None? && first.None? ==> !page.success && page.error == Some(NullBodyClone.Message())))
      && (!page.success ==>
            && page.contentSource == Failure && page.content == ErrorContent && page.error.Some?
            && page.title == (if doc.title != "" then doc.title else ErrorTitle))
  {
  }

  /** No landmark selector is spelled like one of the tier names the script stores:
      each starts with a character none of those names starts with. */
  lemma SelectorIsNoTierName(selector: string)
    requires selector in Selectors
    ensures selector != [] && selector[0] !in "fbpde"
    ensures selector != Fallback.Name() && selector != BodyFiltered.Name() && selector != Paragraphs.Name()
    ensures selector != DocumentText.Name() && selector != Failure.Name()
  {
  }

  /** The strings of two tags a snapshot can carry are equal only for equal tags. */
  lemma NameIdentifiesSource(p: Source, q: Source)
    requires p.Landmark? ==> p.selector in Selectors
    requires q.Landmark? ==> q.selector in Selectors
    ensures p.Name() == q.Name() ==> p == q
  {
    if p.Landmark? { SelectorIsNoTierName(p.selector); }
    if q.Landmark? { SelectorIsNoTierName(q.selector); }
  }

  /** The `contentSource` string a snapshot stores tells the tiers apart: no landmark
      selector is spelled like a tier name, so two snapshots that store the same
      string come from the same tier (and, for a landmark, the same selector). */
  lemma SourceNameIdentifiesTier(doc: Document, now: int, other: Document, later: int)
    ensures var p, q := Extract(doc, now).contentSource, Extract(other, later).contentSource;
      p.Name() == q.Name() ==> p == q
  {
    SettledDraftShape(doc);
    SettledDraftShape(other);
    PageOfSettled(doc, now);
    PageOfSettled(other, later);
    NameIdentifiesSource(Extract(doc, now).contentSource, Extract(other, later).contentSource);
  }

  /** How a snapshot is read off the settled draft. */
  lemma PageOfSettled(doc: Document, now: int)
    ensures var page := Extract(doc, now);
      match SettledDraft(doc)
      case Ok(d) => page.success && page.contentSource == d.source && page.content == Truncate(d.text)
      case Err(_) => !page.success && page.contentSource == Failure
  {
  }

  /** The settled tag is the primary tier's only when both later tiers kept its cleaned text. */
  lemma SettledKeepsPrimary(doc: Document)
    requires PrimaryDraft(doc).Ok?
    ensures var primary := PrimaryDraft(doc).value; var cleaned := CleanText(primary.text);
      && (|cleaned| >= CleanThreshold ==> SettledDraft(doc) == Ok(Draft(cleaned, primary.source)))
      && (|cleaned| < CleanThreshold ==>
            SettledDraft(doc).Err? || SettledDraft(doc).value.source == Paragraphs || SettledDraft(doc).value.source == DocumentText)
  {
    var primary := PrimaryDraft(doc).value;
    var cleaned := CleanText(primary.text);
    var para := ParagraphTier(doc, cleaned, primary.source);
    assert SettledDraft(doc) == RawTier(doc, para);
    if |cleaned| >= CleanThreshold {
      assert para == Draft(cleaned, primary.source);
    } else {
      assert para.source == Paragraphs;
    }
  }

  /** The final tag is a landmark selector exactly when a landmark qualified and its
      cleaned text reached `CleanThreshold`; the content is then that cleaned text. */
  lemma SourceIsLandmark(doc: Document, now: int)
    ensures var page := Extract(doc, now); var first := FirstLandmark(doc.landmarks, 0);
      && (page.contentSource.Landmark? <==>
            && first.Some? && !LandmarkThrows(doc.landmarks, first.value)
            && |CleanText(doc.landmarks[Selectors[first.value]].innerText)| >= CleanThreshold)
      && (page.contentSource.Landmark? ==>
            && page.success && page.contentSource.selector == Selectors[first.value]
            && page.content == Truncate(CleanText(doc.landmarks[Selectors[first.value]].innerText)))
  {
    PageOfSettled(doc, now);
    match PrimaryDraft(doc)
    case Err(_) =>
    case Ok(primary) =>
      SettledKeepsPrimary(doc);
  }

  /** The final tag is 'body-filtered' exactly when no landmark qualified, the body
      exists and its filtered text cleans to at least `CleanThreshold` characters. */
  lemma SourceIsFilteredBody(doc: Document, now: int)
    ensures var page := Extract(doc, now);
      && (page.contentSource == BodyFiltered <==>
            && FirstLandmark(doc.landmarks, 0).None? && doc.body.Some?
            && |CleanText(doc.body.value.filteredText)| >= CleanThreshold)
      && (page.contentSource == BodyFiltered ==>
            page.success && page.content == Truncate(CleanText(doc.body.value.filteredText)))
  {
    PageOfSettled(doc, now);
    match PrimaryDraft(doc)
    case Err(_) =>
    case Ok(primary) =>
      SettledKeepsPrimary(doc);
  }

  /** The paragraph tier's outcome once the primary text cleaned too short. */
  lemma SettledAfterParagraphs(doc: Document)
    requires PrimaryDraft(doc).Ok? && |CleanText(PrimaryDraft(doc).value.text)| < CleanThreshold
    ensures var text := ParagraphText(doc.fragments);
      && (|text| >= RawThreshold ==> SettledDraft(doc) == Ok(Draft(text, Paragraphs)))
      && (|text| < RawThreshold ==> SettledDraft(doc) == RawTier(doc, Draft(text, Paragraphs)))
  {
    var primary := PrimaryDraft(doc).value;
    assert ParagraphTier(doc, CleanText(primary.text), primary.source) == Draft(ParagraphText(doc.fragments), Paragraphs);
  }

  /** The final tag is 'paragraphs' exactly when the primary text cleaned to fewer
      than `CleanThreshold` characters and the paragraph text reached `RawThreshold`. */
  lemma SourceIsParagraphs(doc: Document, now: int)
    ensures var page := Extract(doc, now);
      && (page.contentSource == Paragraphs <==>
            && PrimaryDraft(doc).Ok?
            && |CleanText(PrimaryDraft(doc).value.text)| < CleanThreshold
            && |ParagraphText(doc.fragments)| >= RawThreshold)
      && (page.contentSource == Paragraphs ==>
            page.success && page.content == Truncate(ParagraphText(doc.fragments)))
  {
    PageOfSettled(doc, now);
    match PrimaryDraft(doc)
    case Err(_) =>
    case Ok(primary) =>
      assert primary.source != Paragraphs;
      SettledKeepsPrimary(doc);
      if |CleanText(primary.text)| < CleanThreshold {
        SettledAfterParagraphs(doc);
      }
  }

  /** The final tag is 'document-text' exactly when the body exists and every earlier
      tier left fewer than `RawThreshold` characters; the content is then the body
      text, else the root text, else the fixed notice. */
  lemma SourceIsDocumentText(doc: Document, now: int)
    ensures var page := Extract(doc, now);
      && (page.contentSource == DocumentText <==>
            && doc.body.Some? && PrimaryDraft(doc).Ok?
            && var primary := PrimaryDraft(doc).value;
               |ParagraphTier(doc, CleanText(primary.text), primary.source).text| < RawThreshold)
      && (page.contentSource == DocumentText ==>
            page.success && page.content == Truncate(RawText(doc.body.value, doc.rootText)))
  {
    PageOfSettled(doc, now);
    match PrimaryDraft(doc)
    case Err(_) =>
    case Ok(primary) =>
      assert primary.source != DocumentText;
      var para := ParagraphTier(doc, CleanText(primary.text), primary.source);
      assert para.source != DocumentText;
      assert SettledDraft(doc) == RawTier(doc, para);
  }
}

=== FILE: jstext.dfy ===
/**
 * The JavaScript string built-ins the extension relies on: the whitespace
 * class shared by `\s` and `String.prototype.trim`, `trim`, `Array.prototype.join`
 * and `substring(0, n)`.
 *
 * A Dafny `char` stands for one UTF-16 code unit of a JavaScript string, so
 * `|s|` is the JavaScript `length`.
 */
module JsText {

  /** ECMAScript WhiteSpace and LineTerminator code points: the set matched by
      `\s` in a regular expression and stripped by `trim()`. */
  predicate IsWhitespace(c: char) {
    || c == '\t' || c == '\n' || c == '\U{B}' || c == '\U{C}' || c == '\r'
    || c == ' ' || c == '\U{A0}' || c == '\U{1680}'
    || ('\U{2000}' <= c <= '\U{200A}')
    || c == '\U{2028}' || c == '\U{2029}' || c == '\U{202F}' || c == '\U{205F}'
    || c == '\U{3000}' || c == '\U{FEFF}'
  }

  predicate AllWhitespace(s: string) {
    forall i :: 0 <= i < |s| ==> IsWhitespace(s[i])
  }

  /** Neither the first nor the last character is whitespace. */
  predicate Trimmed(s: string) {
    s == [] || (!IsWhitespace(s[0]) && !IsWhitespace(s[|s| - 1]))
  }

  /** `s` with its leading whitespace removed (`trimStart`). */
  function TrimStart(s: string): (r: string)
    ensures |r| <= |s| && r == s[|s| - |r|..]
    ensures r != [] ==> !IsWhitespace(r[0])
  {
    if s != [] && IsWhitespace(s[0]) then TrimStart(s[1..]) else s
  }

  /** What `trimStart` removes is all whitespace. */
  lemma {:induction false} TrimStartSkipsWhitespace(s: string)
    ensures AllWhitespace(s[..|s| - |TrimStart(s)|])
    decreases |s|
  {
    if s != [] && IsWhitespace(s[0]) {
      TrimStartSkipsWhitespace(s[1..]);
      var n := |s| - |TrimStart(s)|;
      forall i | 0 <= i < n ensures IsWhitespace(s[i]) {
        if i > 0 {
          assert s[i] == s[1..][..n - 1][i - 1];
        }
      }
    }
  }

  /** `trimStart` consumes a whitespace prefix and stops at the first visible character. */
  lemma {:induction false} TrimStartOverWhitespace(w: string, b: string)
    requires AllWhitespace(w)
    requires b == [] || !IsWhitespace(b[0])
    ensures TrimStart(w + b) == b
    decreases |w|
  {
    if w == [] {
      assert w + b == b;
    } else {
      assert (w + b)[1..] == w[1..] + b;
      TrimStartOverWhitespace(w[1..], b);
    }
  }

  /** When `x` ends in a visible character, `trimStart` never reaches what follows `x`. */
  lemma {:induction false} TrimStartConcat(x: string, y: string)
    requires x != [] && !IsWhitespace(x[|x| - 1])
    ensures TrimStart(x + y) == TrimStart(x) + y
    decreases |x|
  {
    if IsWhitespace(x[0]) {
      assert (x + y)[1..] == x[1..] + y;
      TrimStartConcat(x[1..], y);
    }
  }

  /** `trimStart` of a text ending in a visible character keeps that character last. */
  lemma TrimStartKeepsLast(x: string)
    requires x != [] && !IsWhitespace(x[|x| - 1])
    ensures var t := TrimStart(x); t != [] && t[|t| - 1] == x[|x| - 1]
  {
    TrimStartSkipsWhitespace(x);
    assert x[..|x|] == x;
    assert !AllWhitespace(x) by {
      assert !IsWhitespace(x[|x| - 1]);
    }
    var t := TrimStart(x);
    assert t != [];
    assert t == x[|x| - |t|..];
  }

  /** `s` with its trailing whitespace removed (`trimEnd`). */
  function TrimEnd(s: string): (r: string)
    ensures |r| <= |s| && r == s[..|r|]
    ensures r != [] ==> !IsWhitespace(r[|r| - 1])
  {
    if s != [] && IsWhitespace(s[|s| - 1]) then TrimEnd(s[..|s| - 1]) else s
  }

  /** What `trimEnd` removes is all whitespace. */
  lemma {:induction false} TrimEndSkipsWhitespace(s: string)
    ensures AllWhitespace(s[|TrimEnd(s)|..])
    decreases |s|
  {
    if s != [] && IsWhitespace(s[|s| - 1]) {
      var init := s[..|s| - 1];
      TrimEndSkipsWhitespace(init);
      var n := |TrimEnd(s)|;
      forall i | n <= i < |s| ensures IsWhitespace(s[i]) {
        if i < |s| - 1 {
          assert s[i] == init[n..][i - n];
        }
      }
    }
  }

  /** `s.trim()`: the part of `s` between its leading and trailing whitespace. */
  function Trim(s: string): (r: string)
    ensures |r| <= |s| && Trimmed(r)
    ensures Trimmed(s) ==> r == s
  {
    TrimEnd(TrimStart(s))
  }

  /** `trim()` gives the empty string exactly when `s` is all whitespace. */
  lemma TrimEmptyIffBlank(s: string)
    ensures Trim(s) == [] <==> AllWhitespace(s)
  {
    var t := TrimStart(s);
    var r := TrimEnd(t);
    if r == [] {
      TrimStartSkipsWhitespace(s);
      TrimEndSkipsWhitespace(t);
      assert s == s[..|s| - |t|] + t;
    } else {
      assert s[|s| - |t|] == t[0] == r[0];
    }
  }

  /** `t` occurs in `s` as a contiguous piece: `t == s[i..j]` for some `i <= j`. */
  predicate IsInfix(t: string, s: string) {
    exists i, j :: 0 <= i <= j <= |s| && s[i..j] == t
  }

  /** `parts.join(sep)`. */
  function Join(parts: seq<string>, sep: string): (r: string)
    ensures parts == [] ==> r == []
    ensures parts != [] ==> |r| >= |parts[0]| && r[..|parts[0]|] == parts[0]
    ensures parts != [] ==> var last := parts[|parts| - 1]; |r| >= |last| && r[|r| - |last|..] == last
  {
    if |parts| == 0 then ""
    else if |parts| == 1 then parts[0]
    else parts[0] + sep + Join(parts[1..], sep)
  }

  lemma JoinUnfold(parts: seq<string>, sep: string)
    requires |parts| >= 2
    ensures Join(parts, sep) == parts[0] + sep + Join(parts[1..], sep)
  {
  }

  lemma JoinRegroup(a: string, sep: string, rest: string, p: string)
    ensures a + sep + (rest + sep + p) == (a + sep + rest) + sep + p
  {
  }

  /** Joining one more part appends the separator and that part: the shape a list
      built by `push` and then joined has. */
  lemma {:induction false} JoinSnoc(parts: seq<string>, p: string, sep: string)
    ensures Join(parts + [p], sep) == if parts == [] then p else Join(parts, sep) + sep + p
    decreases |parts|
  {
    var q := parts + [p];
    if parts == [] {
      assert q == [p];
    } else if |parts| == 1 {
      assert q[0] == parts[0] && q[1..] == [p];
      JoinUnfold(q, sep);
    } else {
      assert q[0] == parts[0] && q[1..] == parts[1..] + [p];
      JoinUnfold(q, sep);
      JoinUnfold(parts, sep);
      JoinSnoc(parts[1..], p, sep);
      JoinRegroup(parts[0], sep, Join(parts[1..], sep), p);
    }
  }

  /** `s.substring(0, n)` for a non-negative `n`. */
  function Prefix(s: string, n: nat): (r: string)
    ensures |r| == if |s| < n then |s| else n
    ensures r == s[..|r|]
  {
    if |s| < n then s else s[..n]
  }
}

=== FILE: sidepanel.dfy ===
/**
 * The side panel's state and event handlers (sidepanel/index.js). The DOM
 * elements the script keeps in module constants become fields holding what the
 * handlers read and write: the prompt box, the buttons' `disabled` flags, the
 * `hidden` flags of the loading line, the error toast and the page-context card,
 * the chat transcript, the slider values and their labels, and the module
 * variables `session` and `currentPageData`.
 *
 * What the handlers receive from the browser or the model (the reply of the
 * content script, the textarea's `scrollHeight`, whether `LanguageModel.create`
 * and `session.prompt` succeed) arrives as parameters.
 */
module SidePanel {
  import opened Wrappers
  import opened JsText
  import opened ContentExtraction
  import opened PanelRules

  /** One entry of the chat transcript. The first is the welcome message of the markup. */
  datatype ChatEntry = Welcome | User(text: string) | Assistant(text: string)

  /** The options a session was created with. Its system prompt is the one composed
      from the toggle and the page data the panel held at that moment. */
  datatype SessionConfig = SessionConfig(contextChecked: bool, pageData: Option<PageData>, temperature: real, topK: int)

  /** What `runPrompt` resolves to (`Ok`) or rejects with (`Err`). */
  function PromptReply(hasSession: bool, creation: Result<(), string>, answer: Result<string, string>): (r: Result<string, string>)
    ensures hasSession || creation.Ok? ==> r == answer
    ensures !hasSession && creation.Err? ==> r == Err(creation.error)
  {
    if !hasSession && creation.Err? then Err(creation.error) else answer
  }

  /** The transcript entries a reply adds: the answer, or nothing when it failed. */
  function Shown(reply: Result<string, string>): seq<ChatEntry> {
    if reply.Ok? then [Assistant(reply.value)] else []
  }

  const ChangeActions: set<string> := {"tabChanged", "pageUpdated"}

  class Panel {
    var input: string                 // inputPrompt.value
    var inputHeight: int              // inputPrompt.style.height, in pixels
    var sendDisabled: bool            // buttonPrompt.disabled
    var resetDisabled: bool           // buttonReset's disabled attribute
    var loadingHidden: bool
    var errorToastHidden: bool
    var errorText: string             // the error toast's text
    var chat: seq<ChatEntry>          // chatMessages' children
    var session: Option<SessionConfig>
    var currentPageData: Option<PageData>
    var contextChecked: bool          // pageContextToggle.checked
    var cardHidden: bool              // pageContextCard's hidden attribute
    var pageErrorDetails: string
    var temperature: real             // sliderTemperature.value
    var temperatureLabel: real
    var topK: int                     // sliderTopK.value
    var topKLabel: int
    var topKMax: int

    /** The transcript always starts with the welcome message, and page context is
        kept only when it was accepted, with the error card hidden. */
    ghost predicate Valid()
      reads this
    {
      && chat != [] && chat[0] == Welcome
      && (currentPageData.Some? ==> Accepts(currentPageData) && cardHidden)
    }

    /** The script's start (sidepanel/index.js:21-22, 213): no session, no page data,
        the toggle checked. The markup's initial state is taken to be an empty prompt box
        with both buttons disabled, the loading line, toast and card hidden, and the
        welcome message alone in the transcript. */
    constructor(scrollHeight: int)
      ensures Valid()
      ensures input == "" && inputHeight == TextareaHeight(scrollHeight)
      ensures sendDisabled && resetDisabled && loadingHidden && errorToastHidden && cardHidden
      ensures chat == [Welcome] && session.None? && currentPageData.None? && contextChecked
    {
      input := "";
      inputHeight := TextareaHeight(scrollHeight);
      sendDisabled := true;
      resetDisabled := true;
      loadingHidden := true;
      errorToastHidden := true;
      errorText := "";
      chat := [Welcome];
      session := None;
      currentPageData := None;
      contextChecked := true;
      cardHidden := true;
      pageErrorDetails := "";
      temperature := 0.0;
      temperatureLabel := 0.0;
      topK := 0;
      topKLabel := 0;
      topKMax := 0;
    }

    /** `reset` (sidepanel/index.js:101-106): the session is dropped. */
    method Reset()
      modifies this`session
      ensures session.None?
    {
      session := None;
    }

    /** `showResponse` (sidepanel/index.js:323-327). */
    method ShowResponse(response: string)
      modifies this`loadingHidden, this`sendDisabled, this`chat
      ensures loadingHidden && !sendDisabled && chat == old(chat) + [Assistant(response)]
    {
      loadingHidden := true;
      sendDisabled := false;
      AddAIMessage(response);
    }

    /** `addAIMessage` (sidepanel/index.js:52-70). */
    method AddAIMessage(text: string)
      modifies this`chat
      ensures chat == old(chat) + [Assistant(text)]
    {
      chat := chat + [Assistant(text)];
    }

    /** `showError` (sidepanel/index.js:329-334); the 5-second timer is `HideErrorToast`. */
    method ShowError(error: string)
      modifies this`loadingHidden, this`sendDisabled, this`errorText, this`errorToastHidden
      ensures loadingHidden && !sendDisabled && errorText == error && !errorToastHidden
    {
      loadingHidden := true;
      sendDisabled := false;
      errorText := error;
      errorToastHidden := false;
    }

    /** The timer started by `showError` (sidepanel/index.js:336-338). */
    method HideErrorToast()
      modifies this`errorToastHidden
      ensures errorToastHidden
    {
      errorToastHidden := true;
    }

    /** `showLoading` (sidepanel/index.js:316-321). */
    method ShowLoading()
      modifies this`resetDisabled, this`sendDisabled, this`loadingHidden
      ensures !resetDisabled && sendDisabled && !loadingHidden
    {
      resetDisabled := false;
      sendDisabled := true;
      loadingHidden := false;
    }

    /** `initDefaults` (sidepanel/index.js:108-128) with the availability test before
        the defaults are read. `api` is `None` when `LanguageModel` is absent. */
    method InitDefaults(api: Option<ModelParams>)
      requires Valid()
      modifies this`loadingHidden, this`sendDisabled, this`chat,
               this`temperature, this`temperatureLabel, this`topK, this`topKLabel, this`topKMax
      ensures Valid()
      ensures InitDefaultsChecked(api) == ShowedUnavailable ==>
                && loadingHidden && !sendDisabled && chat == old(chat) + [Assistant(ModelUnavailableText)]
                && temperature == old(temperature) && temperatureLabel == old(temperatureLabel)
                && topK == old(topK) && topKLabel == old(topKLabel) && topKMax == old(topKMax)
      ensures InitDefaultsChecked(api).Applied? ==>
                var defaults := InitDefaultsChecked(api).params;
                && temperature == defaults.defaultTemperature && temperatureLabel == defaults.defaultTemperature
                && topK == DefaultTopK(defaults.defaultTopK) && topKLabel == topK
                && topKMax == defaults.maxTopK
                && chat == old(chat) && sendDisabled == old(sendDisabled) && loadingHidden == old(loadingHidden)
    {
      if api.None? {
        ShowResponse(ModelUnavailableText);
        return;
      }
      var defaults := api.value;
      temperature := defaults.defaultTemperature;
      if defaults.defaultTopK > TopKCap {
        topK := TopKCap;
        topKLabel := TopKCap;
      } else {
        topK := defaults.defaultTopK;
        topKLabel := defaults.defaultTopK;
      }
      topKMax := defaults.maxTopK;
      temperatureLabel := defaults.defaultTemperature;
    }

    /** `updatePageInfo` (sidepanel/index.js:158-187) once the content script has
        replied with `pageData`. */
    method UpdatePageInfo(pageData: Option<PageData>)
      requires Valid()
      modifies this`currentPageData, this`cardHidden, this`pageErrorDetails
      ensures Valid()
      ensures Accepts(pageData) ==> currentPageData == pageData && cardHidden && pageErrorDetails == old(pageErrorDetails)
      ensures !Accepts(pageData) ==>
                currentPageData.None? && !cardHidden && pageErrorDetails == RejectionFor(pageData).Message()
    {
      if pageData.Some? && pageData.value.success && pageData.value.content != "" && |pageData.value.content| > AcceptLength {
        currentPageData := pageData;
        cardHidden := true;
      } else {
        currentPageData := None;
        var errorMessage := UnableText;
        if pageData.Some? && pageData.value.error.Some? && pageData.value.error.value != "" {
          errorMessage := pageData.value.error.value;
        } else if pageData.None? {
          errorMessage := CannotAccessText;
        } else if pageData.value.content != "" && |pageData.value.content| <= AcceptLength {
          errorMessage := TooShortText;
        }
        pageErrorDetails := errorMessage;
        cardHidden := false;
      }
    }

    /** The toggle's change handler (sidepanel/index.js:203-210). Turning it on fetches
        the page again (its reply is `pageData`); turning it off forgets the page. */
    method ToggleChanged(checked: bool, pageData: Option<PageData>)
      requires Valid()
      modifies this`contextChecked, this`currentPageData, this`cardHidden, this`pageErrorDetails
      ensures Valid()
      ensures contextChecked == checked
      ensures !checked ==> currentPageData.None? && cardHidden && pageErrorDetails == old(pageErrorDetails)
      ensures checked && Accepts(pageData) ==>
                currentPageData == pageData && cardHidden && pageErrorDetails == old(pageErrorDetails)
      ensures checked && !Accepts(pageData) ==>
                currentPageData.None? && !cardHidden && pageErrorDetails == RejectionFor(pageData).Message()
    {
      contextChecked := checked;
      if contextChecked {
        UpdatePageInfo(pageData);
      } else {
        cardHidden := true;
        currentPageData := None;
      }
    }

    /** The background script's notification (sidepanel/index.js:190-200): after a tab
        switch or reload the page is fetched again, but only while the toggle is on. */
    method PageChanged(action: string, pageData: Option<PageData>)
      requires Valid()
      modifies this`currentPageData, this`cardHidden, this`pageErrorDetails
      ensures Valid()
      ensures action in ChangeActions && contextChecked && Accepts(pageData) ==>
                currentPageData == pageData && cardHidden && pageErrorDetails == old(pageErrorDetails)
      ensures action in ChangeActions && contextChecked && !Accepts(pageData) ==>
                currentPageData.None? && !cardHidden && pageErrorDetails == RejectionFor(pageData).Message()
      ensures !(action in ChangeActions && contextChecked) ==>
                currentPageData == old(currentPageData) && cardHidden == old(cardHidden)
                && pageErrorDetails == old(pageErrorDetails)
    {
      if action == "tabChanged" || action == "pageUpdated" {
        if contextChecked {
          UpdatePageInfo(pageData);
        }
      }
    }

    /** The reset button (sidepanel/index.js:216-222): back to the welcome message with no session. */
    method ResetClicked()
      requires Valid()
      modifies this`loadingHidden, this`errorToastHidden, this`chat, this`session, this`resetDisabled
      ensures Valid()
      ensures loadingHidden && errorToastHidden && chat == [Welcome] && session.None? && resetDisabled
    {
      loadingHidden := true;
      errorToastHidden := true;
      chat := [chat[0]];
      Reset();
      resetDisabled := true;
    }

    /** The temperature slider's input handler (sidepanel/index.js:224-227). */
    method TemperatureInput(value: real)
      modifies this`temperature, this`temperatureLabel, this`session
      ensures temperature == value && temperatureLabel == value && session.None?
    {
      temperature := value;
      temperatureLabel := value;
      Reset();
    }

    /** The top-K slider's input handler (sidepanel/index.js:229-232). */
    method TopKInput(value: int)
      modifies this`topK, this`topKLabel, this`session
      ensures topK == value && topKLabel == value && session.None?
    {
      topK := value;
      topKLabel := value;
      Reset();
    }

    /** The prompt box's input handler (sidepanel/index.js:234-241); `scrollHeight` is
        the box's content height once it holds `value`. */
    method Input(value: string, scrollHeight: int)
      modifies this`input, this`inputHeight, this`sendDisabled
      ensures input == value && inputHeight == TextareaHeight(scrollHeight)
      ensures sendDisabled <==> !SendEnabled(value)
    {
      input := value;
      inputHeight := TextareaHeight(scrollHeight);
      if Trim(input) != "" {
        sendDisabled := false;
      } else {
        sendDisabled := true;
      }
    }

    /** `addUserMessage` (sidepanel/index.js:32-49). */
    method AddUserMessage(text: string)
      modifies this`chat
      ensures chat == old(chat) + [User(text)]
    {
      chat := chat + [User(text)];
    }

    /** `autoResizeTextarea` (sidepanel/index.js:25-29); `scrollHeight` is the box's content height. */
    method AutoResizeTextarea(scrollHeight: int)
      modifies this`inputHeight
      ensures inputHeight == TextareaHeight(scrollHeight)
    {
      inputHeight := TextareaHeight(scrollHeight);
    }

    /** `runPrompt` (sidepanel/index.js:85-99): create a session with `params` when there
        is none, then prompt it. A failed creation resets and rethrows; a failed prompt
        reaches the caller without a reset, because the prompt's promise is returned
        unawaited from inside the `try`. */
    method RunPrompt(params: SessionConfig, creation: Result<(), string>, answer: Result<string, string>)
        returns (reply: Result<string, string>)
      modifies this`session
      ensures reply == PromptReply(old(session).Some?, creation, answer)
      ensures old(session).Some? ==> session == old(session)
      ensures old(session).None? ==> session == if creation.Ok? then Some(params) else None
    {
      if session.None? {
        if creation.Err? {
          Reset();
          return Err(creation.error);
        }
        session := Some(params);
      }
      reply := answer;
    }

    /** The state after `prompt` was sent (sidepanel/index.js:258-311): it is in the
        transcript followed by the answer, the box is cleared and resized, the loading
        line is gone and the send button enabled; a failure is in the error toast. The
        session is kept when there was one; otherwise it is the one just created, whose
        system prompt comes from the toggle and page data of this moment. */
    twostate predicate Sent(prompt: string, emptyHeight: int, creation: Result<(), string>, answer: Result<string, string>)
      reads this
    {
      var reply := PromptReply(old(session).Some?, creation, answer);
      && input == "" && inputHeight == TextareaHeight(emptyHeight)
      && !resetDisabled && loadingHidden && !sendDisabled
      && chat == old(chat) + [User(prompt)] + Shown(reply)
      && (reply.Err? ==> errorText == reply.error && !errorToastHidden)
      && (reply.Ok? ==> errorText == old(errorText) && errorToastHidden == old(errorToastHidden))
      && session == if old(session).Some? then old(session)
                    else if creation.Ok? then Some(SessionConfig(contextChecked, currentPageData, temperature, topK))
                    else None
    }

    /** sidepanel/index.js:258-311: everything `sendMessage` does once the prompt is not empty. */
    method Submit(prompt: string, emptyHeight: int, creation: Result<(), string>, answer: Result<string, string>)
      requires Valid()
      modifies this`input, this`inputHeight, this`chat, this`resetDisabled, this`sendDisabled,
               this`loadingHidden, this`session, this`errorText, this`errorToastHidden
      ensures Valid()
      ensures Sent(prompt, emptyHeight, creation, answer)
    {
      AddUserMessage(prompt);
      input := "";
      AutoResizeTextarea(emptyHeight);
      ShowLoading();
      var params := SessionConfig(contextChecked, currentPageData, temperature, topK);
      var reply := RunPrompt(params, creation, answer);
      match reply
      case Ok(response) =>
        ShowResponse(response);
      case Err(error) =>
        ShowError(error);
    }

    /** `sendMessage` (sidepanel/index.js:254-312). `emptyHeight` is the box's
        `scrollHeight` once cleared; `creation` is the outcome of `LanguageModel.create`
        (asked only when there is no session), `answer` that of `session.prompt`. Errors
        arrive as the text the toast would show. An input that trims to nothing changes nothing. */
    method SendMessage(emptyHeight: int, creation: Result<(), string>, answer: Result<string, string>)
      requires Valid()
      modifies this`input, this`inputHeight, this`chat, this`resetDisabled, this`sendDisabled,
               this`loadingHidden, this`session, this`errorText, this`errorToastHidden
      ensures Valid()
      ensures Trim(old(input)) == "" ==> unchanged(this)
      ensures Trim(old(input)) != "" ==> Sent(Trim(old(input)), emptyHeight, creation, answer)
    {
      var prompt := Trim(input);
      if prompt == "" {
        return;
      }
      Submit(prompt, emptyHeight, creation, answer);
    }

    /** The prompt box's keydown handler (sidepanel/index.js:244-251): Enter without
        Shift sends, unless the send button is disabled. */
    method KeyDown(key: string, shiftKey: bool, emptyHeight: int, creation: Result<(), string>,
                   answer: Result<string, string>)
      requires Valid()
      modifies this`input, this`inputHeight, this`chat, this`resetDisabled, this`sendDisabled,
               this`loadingHidden, this`session, this`errorText, this`errorToastHidden
      ensures Valid()
      ensures key != "Enter" || shiftKey || old(sendDisabled) || Trim(old(input)) == "" ==> unchanged(this)
      ensures key == "Enter" && !shiftKey && !old(sendDisabled) && Trim(old(input)) != "" ==>
                Sent(Trim(old(input)), emptyHeight, creation, answer)
    {
      if key == "Enter" && !shiftKey {
        if !sendDisabled {
          SendMessage(emptyHeight, creation, answer);
        }
      }
    }
  }
}

=== FILE: sidepanel_rules.dfy ===
/**
 * The decision rules of the side panel (sidepanel/index.js) that do not depend
 * on its state: the textarea height clamp, the default top-K cap, when a page
 * snapshot is accepted and which message explains a rejection, when the send
 * button is enabled, and the system prompt sent with a new session.
 */
module PanelRules {
  import opened Wrappers
  import opened JsText
  import opened ContentExtraction

  const MinInputHeight := 52
  const MaxInputHeight := 160

  /** `Math.max(52, Math.min(scrollHeight, 160))`: the textarea's new height in pixels. */
  function TextareaHeight(scrollHeight: int): (h: int)
    ensures MinInputHeight <= h <= MaxInputHeight
    ensures MinInputHeight <= scrollHeight <= MaxInputHeight ==> h == scrollHeight
    ensures scrollHeight < MinInputHeight ==> h == MinInputHeight
    ensures scrollHeight > MaxInputHeight ==> h == MaxInputHeight
  {
    if scrollHeight > MaxInputHeight then MaxInputHeight
    else if scrollHeight < MinInputHeight then MinInputHeight
    else scrollHeight
  }

  /** A taller content never gives a shorter textarea. */
  lemma HeightMonotone(a: int, b: int)
    requires a <= b
    ensures TextareaHeight(a) <= TextareaHeight(b)
  {
  }

  const TopKCap := 3

  /** The model's defaults as `LanguageModel.params()` reports them. */
  datatype ModelParams = ModelParams(defaultTemperature: real, defaultTopK: int, maxTopK: int)

  /** The top-K value the slider starts at: the model's default, capped at `TopKCap`. */
  function DefaultTopK(modelDefault: int): (k: int)
    ensures k <= TopKCap && k <= modelDefault
    ensures k == TopKCap || k == modelDefault
  {
    if modelDefault > TopKCap then TopKCap else modelDefault
  }

  /** Snapshots whose content is not longer than this are refused. */
  const AcceptLength := 50

  const CannotAccessText := "Cannot access this page - content script may not be loaded"
  const TooShortText := "Page content is too short or appears to be empty"
  const UnableText := "Unable to extract content from this page"

  /** sidepanel/index.js:160: the reply is kept as page context. `None` stands for
      the `null` that `getPageContent` returns when the tab cannot be reached.
      Everything the panel accepts can be used as page context. */
  predicate Accepts(pageData: Option<PageData>): (ok: bool)
    ensures ok ==> Usable(pageData)
  {
    pageData.Some? && pageData.value.success && |pageData.value.content| > AcceptLength
  }

  /** Why a reply was refused, in the order the script tests the cases. */
  datatype Rejection = Reported(message: string) | NoResponse | TooShort | Unexplained {
    /** The text shown in the page-context card. */
    function Message(): string {
      match this
      case Reported(message) => message
      case NoResponse => CannotAccessText
      case TooShort => TooShortText
      case Unexplained => UnableText
    }
  }

  /** sidepanel/index.js:172-180. A reported error counts only when it is a
      non-empty string (JavaScript truthiness). */
  function RejectionFor(pageData: Option<PageData>): (r: Rejection)
    ensures r.Message() != ""
    ensures r == NoResponse <==> pageData.None?
    ensures pageData.Some? && pageData.value.error.Some? && pageData.value.error.value != "" ==>
              r == Reported(pageData.value.error.value)
  {
    if pageData.Some? && pageData.value.error.Some? && pageData.value.error.value != "" then
      Reported(pageData.value.error.value)
    else if pageData.None? then NoResponse
    else if pageData.value.content != "" && |pageData.value.content| <= AcceptLength then TooShort
    else Unexplained
  }

  /** A refused reply that reports a non-empty error shows that error, whatever its
      content. For a refused reply that has no error of its own, the "too short" text is shown
      exactly when there is some content of at most `AcceptLength` characters, and the
      default text exactly when the content is empty or is long but the reply says it failed. */
  lemma RejectionReasons(pageData: Option<PageData>)
    requires !Accepts(pageData)
    ensures RejectionFor(pageData) == NoResponse <==> pageData.None?
    ensures pageData.Some? && pageData.value.error.Some? && pageData.value.error.value != "" ==>
              RejectionFor(pageData) == Reported(pageData.value.error.value)
    ensures pageData.Some? && (pageData.value.error.None? || pageData.value.error.value == "") ==>
      && (RejectionFor(pageData) == TooShort <==> 0 < |pageData.value.content| <= AcceptLength)
      && (RejectionFor(pageData) == Unexplained <==>
            pageData.value.content == "" || (|pageData.value.content| > AcceptLength && !pageData.value.success))
  {
  }

  /** What the panel makes of a snapshot from the extractor: it is accepted exactly when
      the extraction succeeded with more than `AcceptLength` characters; a failed
      extraction shows its own error and a successful but short one the "too short" text. */
  lemma SnapshotVerdict(doc: Document, now: int)
    ensures var page := Extract(doc, now);
      && (Accepts(Some(page)) <==> page.success && |page.content| > AcceptLength)
      && (!page.success ==> page.error.Some? && RejectionFor(Some(page)) == Reported(page.error.value))
      && (page.success && !Accepts(Some(page)) ==> RejectionFor(Some(page)) == TooShort)
  {
    SnapshotFacts(doc, now);
  }

  /** The two facts about a snapshot the panel's verdict rests on: a successful one has
      content and no error, a failed one carries a fault's non-empty message. */
  lemma SnapshotFacts(doc: Document, now: int)
    ensures var page := Extract(doc, now);
      && (page.success ==> page.content != "" && page.error.None?)
      && (!page.success ==> exists f: Fault :: page.error == Some(f.Message()) && f.Message() != "")
  {
    match SettledDraft(doc)
    case Ok(draft) =>
      assert draft.text != "" by {
        match PrimaryDraft(doc)
        case Ok(primary) =>
      }
    case Err(f) =>
      assert Extract(doc, now).error == Some(f.Message());
  }

  /** sidepanel/index.js:236: the send button is enabled when the input holds a
      non-whitespace character. */
  function SendEnabled(input: string): (enabled: bool)
    ensures enabled <==> exists i :: 0 <= i < |input| && !IsWhitespace(input[i])
  {
    TrimEmptyIffBlank(input);
    Trim(input) != ""
  }

  /** A snapshot that can go into the system prompt (sidepanel/index.js:271). */
  predicate Usable(current: Option<PageData>) {
    current.Some? && current.value.success && current.value.content != ""
  }

  const BasePrompt := "You are a helpful and friendly assistant."

  const PageContextHeading := "\n\nCurrent webpage context:\nTitle: "
  const PageContextClosing := "\n\nWhen answering questions, you can reference and analyze the content from this webpage. If the user asks about \"this page\" or similar references, they are referring to the webpage content provided above."

  const UnavailableNote := "\n\nNote: "
    + "The user has enabled page context mode, but the current webpage content is not available. This could be because:\n"
    + "1. The page content couldn't be extracted\n"
    + "2. The page uses dynamic content loading\n"
    + "3. The content script couldn't access the page\n"
    + "4. The page is a special browser page (like chrome:// or extension pages)\n"
    + "\n"
    + "If the user asks about the current page content, politely explain that you cannot access the page content and suggest they:\n"
    + "1. Try refreshing the page and the extension\n"
    + "2. Check if the page has finished loading\n"
    + "3. Try on a different webpage\n"
    + "4. Disable page context mode for general questions\n"
    + "\n"
    + "You can still answer general questions normally without page context."

  /** The block appended when page context is on and usable. */
  function PageContextBlock(page: PageData): string {
    PageContextHeading + page.title + "\nURL: " + page.url + "\nContent: " + page.content + PageContextClosing
  }

  /** sidepanel/index.js:267-297: the system prompt composed for a send. */
  function SystemPrompt(contextChecked: bool, current: Option<PageData>): (prompt: string)
    ensures |prompt| >= |BasePrompt| && prompt[..|BasePrompt|] == BasePrompt
    ensures !contextChecked <==> prompt == BasePrompt
  {
    if !contextChecked then BasePrompt
    else if Usable(current) then BasePrompt + PageContextBlock(current.value)
    else BasePrompt + UnavailableNote
  }

  /** With the toggle off, the page data plays no part in the prompt. */
  lemma ToggleOffIgnoresPage(a: Option<PageData>, b: Option<PageData>)
    ensures SystemPrompt(false, a) == SystemPrompt(false, b)
  {
  }

  lemma InfixOfConcat(pre: string, t: string, post: string)
    ensures IsInfix(t, pre + t + post)
  {
    var s := pre + t + post;
    assert s[|pre|..|pre| + |t|] == t;
  }

  /** The three pieces of a page block occur in any prompt that ends with it. */
  lemma BlockCarriesPieces(base: string, heading: string, title: string, urlLabel: string, url: string,
                           contentLabel: string, content: string, closing: string)
    ensures var prompt := base + (heading + title + urlLabel + url + contentLabel + content + closing);
      IsInfix(title, prompt) && IsInfix(url, prompt) && IsInfix(content, prompt)
  {
    var prompt := base + (heading + title + urlLabel + url + contentLabel + content + closing);
    assert prompt == (base + heading) + title + (urlLabel + url + contentLabel + content + closing);
    InfixOfConcat(base + heading, title, urlLabel + url + contentLabel + content + closing);
    assert prompt == (base + heading + title + urlLabel) + url + (contentLabel + content + closing);
    InfixOfConcat(base + heading + title + urlLabel, url, contentLabel + content + closing);
    assert prompt == (base + heading + title + urlLabel + url + contentLabel) + content + closing;
    InfixOfConcat(base + heading + title + urlLabel + url + contentLabel, content, closing);
  }

  /** With the toggle on and usable page data, its title, URL and content appear in the prompt. */
  lemma PromptCarriesPage(current: Option<PageData>)
    requires Usable(current)
    ensures var prompt := SystemPrompt(true, current);
      IsInfix(current.value.title, prompt) && IsInfix(current.value.url, prompt)
      && IsInfix(current.value.content, prompt)
  {
    var page := current.value;
    BlockCarriesPieces(BasePrompt, PageContextHeading, page.title, "\nURL: ", page.url,
                       "\nContent: ", page.content, PageContextClosing);
  }

  lemma SamePrefixDiffers(base: string, x: string, y: string, k: nat)
    requires k < |x| && k < |y| && x[k] != y[k]
    ensures base + x != base + y
  {
    assert (base + x)[|base| + k] == x[k];
    assert (base + y)[|base| + k] == y[k];
  }

  /** With the toggle on, the prompt is the page-context prompt when the page data is
      usable and the "not available" prompt otherwise, and the two never coincide. */
  lemma PromptOutcomesDistinct(current: Option<PageData>)
    ensures Usable(current) ==> SystemPrompt(true, current) != BasePrompt + UnavailableNote
    ensures !Usable(current) ==> SystemPrompt(true, current) == BasePrompt + UnavailableNote
  {
    if Usable(current) {
      var block := PageContextBlock(current.value);
      assert block[2] == PageContextHeading[2] == 'C';
      assert UnavailableNote[2] == "\n\nNote: "[2] == 'N';
      SamePrefixDiffers(BasePrompt, block, UnavailableNote, 2);
    }
  }

  /** What `initDefaults` can end in. */
  datatype InitOutcome = Applied(params: ModelParams) | ShowedUnavailable | Threw(message: string)

  /** The ReferenceError message for reading an undeclared `LanguageModel`. */
  const ModelMissingMessage := "LanguageModel is not defined"
  const ModelUnavailableText := "Model not available"

  /** sidepanel/index.js:108-114 as written: `LanguageModel.params()` is awaited before
      the `'LanguageModel' in self` test, so a missing API throws first and the test
      only runs when the API exists. `api` is `None` when `LanguageModel` is absent: the
      API is a property of the global object, so "`LanguageModel` resolves" and
      "`'LanguageModel' in self`" are one and the same condition. */
  function InitDefaultsAsWritten(api: Option<ModelParams>): (r: InitOutcome)
    ensures api.None? ==> r == Threw(ModelMissingMessage)
    ensures api.Some? ==> r == Applied(api.value)
  {
    if api.None? then Threw(ModelMissingMessage)
    else
      var defaults := api.value;
      var present := api.Some?;
      if !present then ShowedUnavailable else Applied(defaults)
  }

  /** The 'Model not available' message is unreachable as written. */
  lemma UnavailableBranchIsDead(api: Option<ModelParams>)
    ensures InitDefaultsAsWritten(api) != ShowedUnavailable
  {
  }

  /** The evidently intended order: test for the API, then read its defaults. */
  function InitDefaultsChecked(api: Option<ModelParams>): (r: InitOutcome)
    ensures r == ShowedUnavailable <==> api.None?
    ensures api.Some? ==> r == Applied(api.value)
    ensures !r.Threw?
  {
    if api.None? then ShowedUnavailable else Applied(api.value)
  }
}

=== FILE: wrappers.dfy ===
/** Option and Result, used where JavaScript returns null or throws. */
module Wrappers {

  datatype Option<+T> = None | Some(value: T)

  datatype Result<+R, +E> = Ok(value: R) | Err(error: E)
}
